=== FILE: README.md ===
# yandex-music-downloader core, modelled in Dafny

The project models the pure core of `ymd/core.py`. It covers four parts.

- **`clear_name`.** This is the file-name sanitiser. It splits on backslash. It removes the Windows-forbidden characters from every segment after the first and strips that segment's trailing dots. It then collapses runs of spaces and strips the text.
- **`prepare_track_path`.** This renders a path pattern for a track:
  - it walks the placeholder table in order, with one `str.replace` per placeholder;
  - it first passes each value through `FILENAME_CLEAR_RE.sub("_", …)`, unless unsafe mode is on;
  - it finishes with `clear_name` and the `.mp3` suffix.
- **`set_id3_tags`.** The ID3 field record the routine writes.
- **`download_track`.** The decisions it takes around its I/O:
  - where the lyrics come from;
  - whether the album cover is reused from the shared cache, downloaded and cached, or saved as a `cover.jpg` sidecar;
  - which calls go to the outside world.

## Modules

- `Wrappers` provides `Option` and `Result`.
- `Strings` gives Python's `in` (that is, `find(..) != -1`), `count`, `split`, `join` and `replace`. `replace` works left to right, is non-overlapping, and does not rescan replaced text.
- `CharClasses` holds the character classes:
  - the `str.isspace` table;
  - `\w`, which is a parameter `word: char -> bool`; the model fixes only its ASCII part (`AsciiWordExact`);
  - `str(int)`.
- `FileNames` is `clear_name`. A later segment that is empty or all dots once its forbidden characters are removed makes the source index an empty string and raise `IndexError`; `a\?` is such a text. The model returns that as `Err(TrailingDotIndexError(i))`.
- `SafeValues` is the regex substitution `[^\w\-\'() ]+ → _`. It is defined by greedy runs.
- `Music` is the data model: track, album, artist and date.
- `PathTemplate` is `prepare_track_path`. `album.artists[0]` raising on an album without artists becomes `Err(NoAlbumArtist)`.
- `TemplateScan` relates the replace loop to `Expand`, a single left-to-right scan of the pattern that never rescans inserted values.
- `Tags` is `set_id3_tags` as a plain record.
- `Materialize` is `download_track`. The API client, the two downloaders, `cover_url` and the sidecar's `is_file` test are oracles: their answers are parameters, and each outgoing call is recorded as a `Request`. `EmbedCovers` runs the embedded-cover step over a batch of tracks that share one cache.

## Behaviour of the code worth knowing

- **Rescanning (ymd/core.py:58-62).** Each `str.replace` runs over the whole text, including values inserted for earlier placeholders. A later placeholder can therefore match text that an earlier value produced.
  - `TemplateScan.SubstituteIsSingleScan` gives a sufficient condition under which the replace loop equals a single left-to-right scan that never looks inside inserted values.
  - `TemplateScan.RescanInUnsafeMode` and `TemplateScan.RescanInSafeMode` exhibit inputs where the two differ. Safe mode is included: the pattern `##title` with the title `year` renders as the album year.
- **`IndexError` (ymd/core.py:28-29).** The dot loop indexes `[-1]` without checking for emptiness. A later segment that is empty or all dots once its forbidden characters are removed (`a\?`, `a\..`, `a\\b`) raises, and the model returns `Err`. This `IndexError` cannot occur in safe mode when the pattern holds no backslash, provided `\w` is exact on ASCII and the album has an artist (`PathTemplate.RenderPathSucceeds`). Without an album artist, `album.artists[0]` at ymd/core.py:45 raises first.
- **A dot re-exposed by `strip` (ymd/core.py:33).** The dot loop runs before the final `strip`, so a segment can still end in a dot: `a\b. ` becomes `a\b.` (`FileNames.StripExposesDot`).
- **Truthiness of the cache entry (ymd/core.py:139-144).** The walrus test is on truthiness, so a cached empty byte string is downloaded again and overwritten (`Materialize.EmptyCoverRefetched`).

## Model

| member | source | states |
|---|---|---|
| FileNames.RemoveBannedSpec | ymd/core.py:23-27 | The inner loop of the segment pass removes exactly the nine forbidden characters. It keeps every other character, in order. |
| FileNames.RemoveEachIsWithout | ymd/core.py:26-27 | Removing the characters one `replace` at a time equals dropping the whole set in one pass. |
| FileNames.StripTrailingDots | ymd/core.py:28-29 | The dot loop fails (the source's `IndexError`) exactly when the segment is all dots or empty. Otherwise it yields a non-empty prefix that does not end in `.`, and everything removed was a dot. |
| FileNames.CleanFrom | ymd/core.py:25-29 | The segment loop cleans each later segment in turn. On error it names the first segment that cannot be cleaned, and every segment before that one could be. |
| FileNames.CleanFromOk | ymd/core.py:25-29 | The segment loop succeeds if and only if no later segment is empty or all dots once its forbidden characters are gone. |
| FileNames.CleanedSegment | ymd/core.py:26-29 | A cleaned segment is non-empty, holds no forbidden character and does not end in `.`. |
| FileNames.CollapseSpaces | ymd/core.py:31-32 | The collapse loop ends because each pass shortens the text. Its result holds no two consecutive spaces. |
| FileNames.CollapseIsSqueeze | ymd/core.py:31-32 | The collapse loop turns every run of spaces into a single space and leaves everything else alone. |
| FileNames.StripLeft | ymd/core.py:33 | The result is a suffix of the text that does not start with whitespace. Only whitespace was removed. |
| FileNames.StripRight | ymd/core.py:33 | The result is a prefix of the text that does not end with whitespace. Only whitespace was removed. |
| FileNames.Tidy | ymd/core.py:31-33 | After collapsing and stripping, the text holds no two consecutive spaces and has no surrounding whitespace. |
| FileNames.TidyKeepsSegments | ymd/core.py:31-33 | Collapsing and stripping keep the number of backslashes. They introduce no forbidden character after the first backslash. |
| FileNames.CleanSegments | ymd/core.py:23-30 | The segment pass keeps the number of segments and leaves the first one untouched. Every later segment is the salvage of the input segment at the same place (forbidden characters removed, then trailing dots) and comes out clean. On failure it names the first later segment that is empty or all dots once its forbidden characters are removed; it fails if and only if there is one. |
| FileNames.ClearNameKeepsOthers | ymd/core.py:22-34 | `clear_name` drops only whitespace, forbidden characters and dots: every other character occurs in the result exactly as often as in the input. |
| FileNames.SalvageKeeps | ymd/core.py:26-29 | Cleaning a later segment removes only forbidden characters and dots. |
| FileNames.TidyCount | ymd/core.py:31-33 | Collapsing and stripping remove only whitespace. |
| FileNames.ClearName | ymd/core.py:22-34 | The result holds no two consecutive spaces and has no surrounding whitespace. `clear_name` raises if and only if a later segment is empty or all dots once its forbidden characters are removed. |
| FileNames.ClearNameSegments | ymd/core.py:23-33 | `clear_name` keeps the number of backslashes and so the number of segments. No segment after the first holds any of the nine forbidden characters. |
| FileNames.StripExposesDot | ymd/core.py:28-33 | The final strip can leave a segment ending in `.`: `a\b. ` becomes `a\b.`. |
| Strings.SplitJoinChar | ymd/core.py:24-30 | Splitting the join of separator-free parts on the separator gives the parts back. |
| Strings.ReplaceChars | ymd/core.py:62 | `str.replace` brings in no character that is in neither the text nor the replacement. |
| Strings.ReplaceIsJoinOfSplit | ymd/core.py:62 | `s.replace(p, r)` equals `r.join(s.split(p))`. |
| Strings.JoinSplit | ymd/core.py:24-30 | Joining the split of a text on the separator gives the text back. |
| SafeValues.SkipRun | ymd/core.py:16 | The greedy `+` consumes the whole leading run of disallowed characters and stops at an allowed one. |
| SafeValues.ClearValueShape | ymd/core.py:60-61 | A substituted value is no longer than the original, is empty only when the original is, and holds only allowed characters and `_`. |
| SafeValues.ClearAllowed | ymd/core.py:60-61 | A value made only of allowed characters is left unchanged. |
| SafeValues.ClearRun | ymd/core.py:60-61 | A non-empty run of disallowed characters becomes exactly one `_`. |
| SafeValues.ClearSplitsAtAllowed | ymd/core.py:60-61 | Cutting next to an allowed character cuts no run, so the two halves are substituted independently. |
| SafeValues.ClearIsAllowed | ymd/core.py:60-61 | Every character of a substituted value is allowed. |
| SafeValues.ClearIdempotent | ymd/core.py:60-61 | Substituting twice gives the same result as substituting once. |
| SafeValues.ClearedIsPathSafe | ymd/core.py:16 | With Python's `\w`, a substituted value holds no `/`, `\`, `#` or `.`, and none of the other forbidden characters. |
| CharClasses.IntToStr | ymd/core.py:59 | `str(n)` is non-empty, starts with `-` exactly when `n` is negative, and is otherwise all decimal digits. |
| CharClasses.IntToStrRoundTrip | ymd/core.py:59 | `str(n)` starts with `-` exactly when `n` is negative. It has no leading zero unless it is `0`, and it reads back as `n`. |
| CharClasses.IntToStrAllowed | ymd/core.py:59-61 | The text of a track number or year is left untouched by the substitution. |
| PathTemplate.Values | ymd/core.py:46-61 | There is one value per placeholder. In unsafe mode they are the raw `str()` values. Otherwise value k is `FILENAME_CLEAR_RE.sub("_", …)` of raw value k, and holds only allowed characters and `_`. |
| PathTemplate.PlaceholderFields | ymd/core.py:45-57 | Each placeholder, by name, gets its field of `repl_dict`: the first album artist's name for `#album-artist`, `#artist-id` and `#artist`, the album id, the track id, the caller's padded number, `str(track.number)`, the title, the album title and `str(album.year)`. |
| PathTemplate.Substitute | ymd/core.py:58-62 | Every character of the substituted text comes from the pattern or from one of the values. |
| PathTemplate.RenderPath | ymd/core.py:37-65 | A rendered path ends in `.mp3`. The part before the suffix holds no two consecutive spaces and has no surrounding whitespace. It has as many backslash-separated segments as the substituted pattern, and no segment after the first holds a forbidden character. The album-artist error happens if and only if the album has no artists. With artists, rendering fails if and only if `clear_name` raises on the substituted pattern. |
| PathTemplate.RenderPathSucceeds | ymd/core.py:37-65 | In safe mode a pattern without a backslash renders for every track whose album has an artist. |
| PathTemplate.LongerTokensFirst | ymd/core.py:46-57 | No placeholder is a prefix of a later one. `#album` comes after `#album-artist` and `#album-id`, `#number` after `#number-padded`, and `#artist` after `#artist-id`. |
| PathTemplate.ArtistTokensAgree | ymd/core.py:45-55 | `#album-artist`, `#artist-id` and `#artist` all render the name of the album's first artist. |
| PathTemplate.SafeValuesArePathSafe | ymd/core.py:58-61 | In safe mode no inserted value holds `#`, `/`, `\`, a forbidden character or a dot. |
| PathTemplate.SubstituteAbsent | ymd/core.py:58-62 | Text in which no placeholder occurs passes the replace loop unchanged. |
| PathTemplate.PlainPattern | ymd/core.py:58-64 | A pattern without placeholders renders as `clear_name` of itself plus `.mp3`, whatever the track. |
| TemplateScan.SubstituteIsSingleScan | ymd/core.py:58-62 | The replace loop equals the single left-to-right scan when two conditions hold: no value contains `#`, and no stretch between two `#` can run on into a placeholder. |
| TemplateScan.SafeRenderIsSingleScan | ymd/core.py:58-64 | In safe mode, a pattern meeting that condition renders through the single scan. |
| TemplateScan.FirstMatchIsLongest | ymd/core.py:46-57 | Where several placeholders start at the same `#`, the table order selects the longest. |
| TemplateScan.DefaultPatternParts | ymd/core.py:18 | `DEFAULT_PATH_PATTERN` splits at `#` into the literal text around its four placeholders. |
| TemplateScan.DefaultPatternScansOnce | ymd/core.py:18 | In safe mode the default pattern renders through the single scan. |
| TemplateScan.DefaultPatternRenders | ymd/core.py:18 | In safe mode the default pattern renders for every track whose album has an artist. |
| TemplateScan.RescanInUnsafeMode | ymd/core.py:58-62 | In unsafe mode the title `#year` renders as the album year, where a single scan keeps the title. |
| TemplateScan.RescanInSafeMode | ymd/core.py:58-62 | Even in safe mode, the pattern `##title` with the title `year` renders as the album year. A single scan gives `#year`. |
| Tags.ReleaseDateOf | ymd/core.py:75-78 | The date is the full release date when the album has one, and its year otherwise. |
| Tags.BuildTags | ymd/core.py:75-97 | This is the field mapping. The album artist is the first album artist, and there is an error if and only if there is none. Both release dates are equal. Lyrics and cover are set only when given, and the cover is a front cover of type `image/jpeg`. `encoded_by` is `ENCODED_BY`. |
| Tags.ArtistFieldRoundTrip | ymd/core.py:84 | Splitting the artist field on `chr(0)` gives back the track's artist names when none of them holds `chr(0)`. With no artists the field is empty. |
| Tags.TrackUrlIsJoin | ymd/core.py:92 | The URL is the slash-join of `https:`, an empty part, the domain, `album`, the album id, `track` and the track id. |
| Tags.TrackUrlParts | ymd/core.py:92 | When they hold no slash, splitting the URL on `/` recovers the domain, the album id and the track id. |
| Materialize.ResolveLyrics | ymd/core.py:126-133 | There are no lyrics unless both flags hold. A full track gives its own lyrics with no call. Otherwise there is exactly one full-info call, and a `None` answer leaves the lyrics unset. |
| Materialize.LyricsProvenance | ymd/core.py:126-133 | At most one call is made. Lyrics exist only when asked for and announced, and come from the track or from the one lookup. A call is made if and only if the track is a basic one and both flags hold. |
| Materialize.ResolveCover | ymd/core.py:135-148 | With no URL nothing happens. In embed mode, a truthy entry is reused with no call; otherwise there is one download, stored under the album id, with every other entry unchanged. In sidecar mode the cover is unset, and a download happens only when `cover.jpg` is not a file. |
| Materialize.CoverReused | ymd/core.py:137-144 | Once a non-empty cover is cached, a later track of the same album downloads nothing and gets the same cover. |
| Materialize.EmptyCoverRefetched | ymd/core.py:139-144 | A cached empty cover is falsy, so it is downloaded again. |
| Materialize.EmbedCovers | ymd/core.py:137-144 | Across a batch sharing one cache:<br>• a downloaded cover is the download of its URL;<br>• any other cover came from the initial cache or from an earlier track of the same album;<br>• after a non-empty cover, later tracks of that album download nothing;<br>• truthy initial entries are kept, and every album ends up with an entry in the cache. |
| Materialize.DownloadTrack | ymd/core.py:111-150 | The first calls are the download URL and then the audio file, and at most four calls are made. Tag writing fails if and only if the album has no artists. Lyrics are tagged only when asked for and announced. A tagged cover comes from embed mode with a URL and equals the cache entry for the album. Sidecar mode leaves the cache unchanged. |
| Materialize.DownloadTrackTags | ymd/core.py:150 | The tags are those `set_id3_tags` builds from the track itself, the lyrics and cover the routine resolved, and the client's domain. |
| Materialize.DownloadTrackLyrics | ymd/core.py:126-133 | The full-info lookup is made if and only if both flags hold and the track is a basic one. A full track is tagged with its own lyrics, and a basic one with the lookup's lyrics, or none when the lookup answers `None`. |
| Materialize.DownloadTrackCover | ymd/core.py:135-144 | In embed mode with a cover URL, the tagged cover is the cache entry when it is truthy and the download otherwise. The download happens if and only if the entry is not truthy, and the cache then holds it under the album id. |
| Materialize.DownloadTrackSidecar | ymd/core.py:135-148 | Without a cover URL no cover call is made and the cache is unchanged. In sidecar mode no cover call is made when `cover.jpg` is a file, and it is downloaded to that path otherwise. |

## Left out

- `setup_session` (ymd/core.py:102-108): cookie and header plumbing of the HTTP library, with no decision in it.
- The network:
  - `http_utils.download_file`, `download_bytes` and the `YandexMusicApi` client are oracles. Their answers are parameters and their calls are recorded requests.
  - Their failures and exceptions are not modelled.
- `cover_url(cover_resolution)` and `DEFAULT_COVER_RESOLUTION`: the answer is an `Option<string>` parameter.
- `eyed3`: `load`, `initTag`, `save`, the `assert audiofile` on an unreadable file, and the construction of `eyed3.core.Date` from `timetuple()`. These are a foreign library and file I/O. The tag is a plain record, and the full date is the album's `DateTime`.
- `pathlib.Path`:
  - `str(Path)` normalisation (duplicate or trailing slashes, `.` components) is not modelled; the pattern is taken as a string.
  - The sidecar path `target_path.parent / "cover.jpg"` is a parameter.
- `DEFAULT_PATH_PATTERN` (ymd/core.py:18) is taken in its POSIX string form, `#album-artist/#album/#number - #title`. On Windows `str(Path)` joins with `\`, which `clear_name` would then treat as segment separators; that rendering is not modelled.
- Concurrency: the routine has no locking, and the model is sequential.
- `\w` beyond ASCII is left open (the `word` parameter). The whitespace that `strip` removes is Python's fixed table.
- Materialize.DownloadTrack: the tags are returned, not written to the file. The order of the calls after the first two is not stated.
- Materialize.DownloadTrack: `download_bytes` is a total function `download: string -> seq<byte>` of the URL, so two downloads of one URL give the same bytes; a server that answers differently on a second request is not modelled. `EmptyCoverRefetched` and `EmbedCovers` rely on this.
- Materialize.EmbedCovers: it does not state that each album is downloaded at most once when its downloads return empty bytes, because the code downloads again in that case.

=== FILE: chars.dfy ===
/** Character classes and number formatting of Python's `str`, as the core
    uses them.

    Python's `\w` (a Unicode letter, digit or `_`) depends on the Unicode
    character database, so the model takes it as a parameter `word` and only
    pins down its ASCII part (`AsciiWordExact`). The whitespace that
    `str.strip()` removes is a short fixed table and is written out. */
module CharClasses {

  /** `c.isspace()`: the characters `str.strip()` removes. */
  predicate IsWhitespace(c: char) {
    ('\t' <= c <= '\r')
    || ('\U{1C}' <= c <= ' ')
    || c == '\U{85}' || c == '\U{A0}' || c == '\U{1680}'
    || ('\U{2000}' <= c <= '\U{200A}')
    || c == '\U{2028}' || c == '\U{2029}' || c == '\U{202F}'
    || c == '\U{205F}' || c == '\U{3000}'
  }

  predicate IsAsciiLetter(c: char) {
    ('a' <= c <= 'z') || ('A' <= c <= 'Z')
  }

  predicate IsDigit(c: char) {
    '0' <= c <= '9'
  }

  /** On ASCII, `word` is exactly `[A-Za-z0-9_]`, as Python's `\w` is; what it
      says about other characters is left open. */
  ghost predicate AsciiWordExact(word: char -> bool) {
    forall c: char :: (c as int) < 128 ==> (word(c) <==> IsAsciiLetter(c) || IsDigit(c) || c == '_')
  }

  /** A character the sanitising class `[^\w\-\'() ]` leaves alone. */
  predicate Allowed(word: char -> bool, c: char) {
    word(c) || c == '-' || c == '\'' || c == '(' || c == ')' || c == ' '
  }

  function DigitChar(d: nat): char
    requires d < 10
  {
    ['0', '1', '2', '3', '4', '5', '6', '7', '8', '9'][d]
  }

  function DigitValue(c: char): nat
    requires IsDigit(c)
  {
    c as int - '0' as int
  }

  /** Decimal digits of `n`, most significant first, no leading zero. */
  function NatToDecimal(n: nat): (r: string)
    ensures |r| > 0
    ensures forall i :: 0 <= i < |r| ==> IsDigit(r[i])
    decreases n
  {
    if n < 10 then [DigitChar(n)] else NatToDecimal(n / 10) + [DigitChar(n % 10)]
  }

  /** Value of a non-empty run of decimal digits. */
  function DecimalValue(s: string): nat
    requires forall i :: 0 <= i < |s| ==> IsDigit(s[i])
    decreases |s|
  {
    if |s| == 0 then 0 else 10 * DecimalValue(s[..|s| - 1]) + DigitValue(s[|s| - 1])
  }

  /** `str(n)` for a Python `int`. */
  function IntToStr(n: int): (r: string)
    ensures |r| > 0 && (r[0] == '-' <==> n < 0)
    ensures forall i :: 0 <= i < |r| ==> IsDigit(r[i]) || (i == 0 && n < 0)
  {
    if n < 0 then "-" + NatToDecimal(-n) else NatToDecimal(n)
  }

  /** The decimal text of `n` reads back as `n`. */
  lemma {:induction false} DecimalRoundTrip(n: nat)
    ensures DecimalValue(NatToDecimal(n)) == n
    decreases n
  {
    var r := NatToDecimal(n);
    if n >= 10 {
      DecimalRoundTrip(n / 10);
      assert r[..|r| - 1] == NatToDecimal(n / 10);
    }
  }

  /** `str(n)` starts with `-` exactly for negative `n`, has no leading zero
      unless it is `0`, and reads back as `n`. */
  lemma IntToStrRoundTrip(n: int)
    ensures var s := IntToStr(n);
      && |s| > 0
      && (s[0] == '-' <==> n < 0)
      && (var digits := if n < 0 then s[1..] else s;
          && |digits| > 0
          && (forall i :: 0 <= i < |digits| ==> IsDigit(digits[i]))
          && (digits[0] == '0' ==> digits == "0")
          && DecimalValue(digits) == (if n < 0 then -n else n))
  {
    var m: nat := if n < 0 then -n else n;
    DecimalRoundTrip(m);
    LeadingDigit(m);
    if n < 0 {
      assert IntToStr(n)[1..] == NatToDecimal(m);
    }
  }

  lemma {:induction false} LeadingDigit(n: nat)
    ensures NatToDecimal(n)[0] == '0' ==> n == 0
    decreases n
  {
    if n >= 10 {
      LeadingDigit(n / 10);
    }
  }

  /** The text of a number is never touched by the sanitising class: it is
      made of digits and `-` only. */
  lemma IntToStrAllowed(word: char -> bool, n: int)
    requires AsciiWordExact(word)
    ensures forall i :: 0 <= i < |IntToStr(n)| ==> Allowed(word, IntToStr(n)[i])
  {
    var s := IntToStr(n);
    forall i | 0 <= i < |s|
      ensures Allowed(word, s[i])
    {
      if n < 0 && i > 0 {
        assert s[i] == NatToDecimal(-n)[i - 1];
      }
    }
  }
}

=== FILE: filenames.dfy ===
/** `clear_name` (ymd/core.py:22-34): the last clean-up of a rendered path.

    The text is split on backslash only. Every segment after the first loses
    the characters Windows forbids in file names and then its trailing dots;
    the segments are joined again, runs of spaces are collapsed and the
    whole text is stripped of surrounding whitespace.

    A later segment that is empty, or that consists of dots only once the
    forbidden characters are gone, makes the source index an empty string
    (`text_spl[i][-1]`) and raise `IndexError`; the model returns `Err`. */
module FileNames {
  import opened Wrappers
  import opened Strings
  import opened CharClasses

  /** The segment separator `clear_name` splits on. */
  const Sep: char := '\\'

  /** The forbidden characters, in the order the source removes them. */
  const BanChars: string := "/\\*?<>\"|:"

  /** `IndexError` raised while stripping the dots of segment `segment`. */
  datatype NameError = TrailingDotIndexError(segment: nat)

  predicate NoBanned(s: string) {
    forall i :: 0 <= i < |s| ==> s[i] !in BanChars
  }

  predicate AllDots(s: string) {
    forall i :: 0 <= i < |s| ==> s[i] == '.'
  }

  // ---------------------------------------------------------------------
  // Removing the forbidden characters

  /** The characters of `s` that are not in `chars`, in order: the reference
      meaning of removing a set of characters. */
  function Without(s: string, chars: string): string
    decreases |s|
  {
    if |s| == 0 then []
    else if s[0] in chars then Without(s[1..], chars)
    else [s[0]] + Without(s[1..], chars)
  }

  /** `s.replace(c, "")` for every `c` of `chars`, one after the other. */
  function RemoveEach(s: string, chars: string): string
    decreases |chars|
  {
    if |chars| == 0 then s else RemoveEach(ReplaceAll(s, [chars[0]], ""), chars[1..])
  }

  /** The inner loop of `clear_name` on one segment. */
  function RemoveBanned(segment: string): string {
    RemoveEach(segment, BanChars)
  }

  lemma {:induction false} RemoveOneIsWithout(s: string, c: char)
    ensures ReplaceAll(s, [c], "") == Without(s, [c])
    decreases |s|
  {
    if |s| > 0 {
      RemoveOneIsWithout(s[1..], c);
      if IsPrefix([c], s) {
        assert s[1..] == s[|[c]|..];
      }
    }
  }

  lemma {:induction false} WithoutTwice(s: string, c: char, cs: string)
    ensures Without(Without(s, [c]), cs) == Without(s, [c] + cs)
    decreases |s|
  {
    if |s| > 0 {
      WithoutTwice(s[1..], c, cs);
      if s[0] != c {
        assert Without(s, [c]) == [s[0]] + Without(s[1..], [c]);
        assert ([s[0]] + Without(s[1..], [c]))[1..] == Without(s[1..], [c]);
      }
    }
  }

  /** Removing the characters one at a time removes exactly the characters
      of the list and keeps every other character in order. */
  lemma {:induction false} RemoveEachIsWithout(s: string, chars: string)
    ensures RemoveEach(s, chars) == Without(s, chars)
    decreases |chars|
  {
    if |chars| == 0 {
      WithoutNothing(s, chars);
    } else {
      RemoveOneIsWithout(s, chars[0]);
      RemoveEachIsWithout(Without(s, [chars[0]]), chars[1..]);
      WithoutTwice(s, chars[0], chars[1..]);
      assert [chars[0]] + chars[1..] == chars;
    }
  }

  lemma {:induction false} WithoutNothing(s: string, chars: string)
    requires |chars| == 0
    ensures Without(s, chars) == s
    decreases |s|
  {
    if |s| > 0 {
      WithoutNothing(s[1..], chars);
    }
  }

  lemma {:induction false} WithoutDrops(s: string, chars: string)
    ensures forall i :: 0 <= i < |Without(s, chars)| ==> Without(s, chars)[i] !in chars
    ensures forall c :: c !in chars ==> Count(Without(s, chars), c) == Count(s, c)
    decreases |s|
  {
    if |s| > 0 {
      WithoutDrops(s[1..], chars);
    }
  }

  /** A cleaned segment holds none of the forbidden characters and keeps
      every other character, in order. */
  lemma RemoveBannedSpec(segment: string)
    ensures RemoveBanned(segment) == Without(segment, BanChars)
    ensures NoBanned(RemoveBanned(segment))
  {
    RemoveEachIsWithout(segment, BanChars);
    WithoutDrops(segment, BanChars);
  }

  // ---------------------------------------------------------------------
  // Trailing dots

  /** `while seg[-1] == ".": seg = seg[:-1]`, or `None` where the source
      indexes an empty segment. */
  function StripTrailingDots(segment: string): (r: Option<string>)
    ensures r.None? <==> AllDots(segment)
    ensures r.Some? ==>
      && |r.value| > 0
      && r.value[|r.value| - 1] != '.'
      && IsPrefix(r.value, segment)
      && AllDots(segment[|r.value|..])
    decreases |segment|
  {
    if |segment| == 0 then None
    else if segment[|segment| - 1] == '.' then
      var r := StripTrailingDots(segment[..|segment| - 1]);
      assert r.Some? ==> segment[|r.value|..] == segment[..|segment| - 1][|r.value|..] + ".";
      r
    else Some(segment)
  }

  // ---------------------------------------------------------------------
  // The segment pass

  /** A later segment once cleaned: its forbidden characters removed, then
      its trailing dots; `None` where the source raises. */
  function Salvage(segment: string): Option<string> {
    StripTrailingDots(RemoveBanned(segment))
  }

  /** A segment that nothing is left of once its forbidden characters and
      trailing dots are gone: `clear_name` raises on it. */
  predicate Unsalvageable(segment: string) {
    AllDots(RemoveBanned(segment))
  }

  /** The loop `for i in range(from, len(segments))`: each segment is cleaned
      in turn and the first one that cannot be stripped raises. */
  function CleanFrom(segments: seq<string>, from: nat): (r: Result<seq<string>, NameError>)
    requires from <= |segments|
    ensures r.Ok? ==>
      && |r.value| == |segments| - from
      && forall k :: 0 <= k < |r.value| ==>
           Salvage(segments[from + k]) == Some(r.value[k])
    ensures r.Err? ==>
      && from <= r.error.segment < |segments|
      && Unsalvageable(segments[r.error.segment])
      && forall k :: from <= k < r.error.segment ==> !Unsalvageable(segments[k])
    decreases |segments| - from
  {
    if from == |segments| then Ok([])
    else
      match Salvage(segments[from])
      case None => Err(TrailingDotIndexError(from))
      case Some(cleaned) =>
        assert !Unsalvageable(segments[from]);
        match CleanFrom(segments, from + 1)
        case Err(e) => Err(e)
        case Ok(rest) =>
          CleanedCons(segments, from, cleaned, rest, Salvage);
          Ok([cleaned] + rest)
  }

  /** Prepending one result to a pointwise image keeps it pointwise. */
  lemma CleanedCons(segments: seq<string>, from: nat, cleaned: string, rest: seq<string>,
                    f: string -> Option<string>)
    requires from < |segments| && |rest| == |segments| - from - 1
    requires f(segments[from]) == Some(cleaned)
    requires forall k :: 0 <= k < |rest| ==> f(segments[from + 1 + k]) == Some(rest[k])
    ensures forall k :: 0 <= k < |rest| + 1 ==> f(segments[from + k]) == Some(([cleaned] + rest)[k])
  {
    forall k | 0 < k < |rest| + 1
      ensures f(segments[from + k]) == Some(([cleaned] + rest)[k])
    {
      assert segments[from + k] == segments[from + 1 + (k - 1)];
    }
  }

  /** The pass succeeds exactly when no segment from `from` on is
      unsalvageable. */
  lemma CleanFromOk(segments: seq<string>, from: nat)
    requires from <= |segments|
    ensures CleanFrom(segments, from).Ok? <==> forall k :: from <= k < |segments| ==> !Unsalvageable(segments[k])
  {
    var r := CleanFrom(segments, from);
    if r.Ok? {
      forall k | from <= k < |segments|
        ensures !Unsalvageable(segments[k])
      {
        assert Salvage(segments[from + (k - from)]) == Some(r.value[k - from]);
      }
    }
  }

  /** The characteristic property of a cleaned segment. */
  lemma CleanedSegment(segment: string, cleaned: string)
    requires Salvage(segment) == Some(cleaned)
    ensures |cleaned| > 0 && cleaned[|cleaned| - 1] != '.'
    ensures NoBanned(cleaned)
  {
    RemoveBannedSpec(segment);
    assert cleaned == RemoveBanned(segment)[..|cleaned|];
  }

  // ---------------------------------------------------------------------
  // Collapsing spaces

  /** The reference meaning of collapsing: a space followed by another space
      is dropped, so every run of spaces becomes a single space. */
  function Squeeze(s: string): string
    decreases |s|
  {
    if |s| < 2 then s
    else if s[0] == ' ' && s[1] == ' ' then Squeeze(s[1..])
    else [s[0]] + Squeeze(s[1..])
  }

  /** `while text.find("  ") != -1: text = text.replace("  ", " ")`; each pass
      shortens the text, which is why the loop ends. */
  function CollapseSpaces(s: string): (r: string)
    ensures !Occurs("  ", r)
    decreases |s|
  {
    if Occurs("  ", s) then
      ReplaceShrinks(s, "  ", " ");
      CollapseSpaces(ReplaceAll(s, "  ", " "))
    else s
  }

  lemma {:induction false} SqueezeWithoutPairs(s: string)
    requires !Occurs("  ", s)
    ensures Squeeze(s) == s
    decreases |s|
  {
    if |s| >= 2 {
      assert !IsPrefix("  ", s);
      SqueezeWithoutPairs(s[1..]);
    }
  }

  lemma SqueezeSpaceCons(t: string)
    ensures Squeeze([' '] + t) == if |t| > 0 && t[0] == ' ' then Squeeze(t) else [' '] + Squeeze(t)
  {
    assert ([' '] + t)[1..] == t;
  }

  lemma SqueezeOtherCons(c: char, t: string)
    requires c != ' '
    ensures Squeeze([c] + t) == [c] + Squeeze(t)
  {
    assert ([c] + t)[1..] == t;
  }

  /** One pass of the loop starts with a space exactly when its input does,
      and otherwise starts with the same character. */
  lemma PassHead(s: string)
    requires |s| > 0
    ensures |ReplaceAll(s, "  ", " ")| > 0
    ensures ReplaceAll(s, "  ", " ")[0] == s[0]
  {
  }

  /** One pass of the loop does not change what collapsing yields. */
  lemma {:induction false} SqueezePass(s: string)
    ensures Squeeze(ReplaceAll(s, "  ", " ")) == Squeeze(s)
    decreases |s|
  {
    var r := ReplaceAll(s, "  ", " ");
    if IsPrefix("  ", s) {
      var t := s[2..];
      SqueezePass(t);
      assert r == " " + ReplaceAll(t, "  ", " ");
      SqueezeSpaceCons(ReplaceAll(t, "  ", " "));
      if |t| > 0 {
        PassHead(t);
      }
      assert s[1..] == [' '] + t;
      SqueezeSpaceCons(t);
    } else if |s| > 0 {
      var t := s[1..];
      SqueezePass(t);
      assert r == [s[0]] + ReplaceAll(t, "  ", " ");
      if s[0] == ' ' {
        SqueezeSpaceCons(ReplaceAll(t, "  ", " "));
        SqueezeSpaceCons(t);
        assert s == [' '] + t;
        if |t| > 0 {
          PassHead(t);
        }
      } else {
        SqueezeOtherCons(s[0], ReplaceAll(t, "  ", " "));
        SqueezeOtherCons(s[0], t);
        assert s == [s[0]] + t;
      }
    }
  }

  /** The collapse loop computes the reference collapse. */
  lemma {:induction false} CollapseIsSqueeze(s: string)
    ensures CollapseSpaces(s) == Squeeze(s)
    decreases |s|
  {
    if Occurs("  ", s) {
      ReplaceShrinks(s, "  ", " ");
      CollapseIsSqueeze(ReplaceAll(s, "  ", " "));
      SqueezePass(s);
    } else {
      SqueezeWithoutPairs(s);
    }
  }

  // ---------------------------------------------------------------------
  // str.strip()

  function StripLeft(s: string): (r: string)
    ensures |r| <= |s| && r == s[|s| - |r|..]
    ensures forall i :: 0 <= i < |s| - |r| ==> IsWhitespace(s[i])
    ensures |r| > 0 ==> !IsWhitespace(r[0])
    decreases |s|
  {
    if |s| > 0 && IsWhitespace(s[0]) then StripLeft(s[1..]) else s
  }

  function StripRight(s: string): (r: string)
    ensures |r| <= |s| && r == s[..|r|]
    ensures forall i :: |r| <= i < |s| ==> IsWhitespace(s[i])
    ensures |r| > 0 ==> !IsWhitespace(r[|r| - 1])
    decreases |s|
  {
    if |s| > 0 && IsWhitespace(s[|s| - 1]) then StripRight(s[..|s| - 1]) else s
  }

  /** `s.strip()`. */
  function Strip(s: string): string {
    StripRight(StripLeft(s))
  }

  // ---------------------------------------------------------------------
  // clear_name

  /** The tail of `clear_name`: collapse runs of spaces, then strip. */
  function Tidy(s: string): (r: string)
    ensures !Occurs("  ", r)
    ensures |r| > 0 ==> !IsWhitespace(r[0]) && !IsWhitespace(r[|r| - 1])
  {
    var collapsed := CollapseSpaces(s);
    StripKeepsAbsent("  ", collapsed);
    Strip(collapsed)
  }

  /** Stripping cannot create an occurrence of a pattern. */
  lemma StripKeepsAbsent(p: string, s: string)
    requires !Occurs(p, s)
    ensures !Occurs(p, Strip(s))
  {
    AbsentFromSuffix(p, s, StripLeft(s));
    AbsentFromPrefix(p, StripLeft(s), StripRight(StripLeft(s)));
  }

  /** A segment after the first, once cleaned: non-empty, free of forbidden
      characters and not ending in a dot. */
  predicate IsCleanSegment(c: string) {
    |c| > 0 && c[|c| - 1] != '.' && NoBanned(c)
  }

  /** Putting the first segment back in front of the cleaned rest. */
  lemma ShiftedImage(segments: seq<string>, rest: seq<string>, cleaned: seq<string>,
                     f: string -> Option<string>)
    requires |segments| > 0 && |rest| == |segments| - 1 && cleaned == [segments[0]] + rest
    requires forall k :: 0 <= k < |rest| ==> f(segments[1 + k]) == Some(rest[k])
    ensures forall k :: 1 <= k < |cleaned| ==> f(segments[k]) == Some(cleaned[k])
  {
    forall k | 1 <= k < |cleaned|
      ensures f(segments[k]) == Some(cleaned[k])
    {
      var j := k - 1;
      assert f(segments[1 + j]) == Some(rest[j]);
    }
  }

  lemma CleanedAll(segments: seq<string>, cleaned: seq<string>)
    requires |cleaned| == |segments|
    requires forall k :: 1 <= k < |cleaned| ==> Salvage(segments[k]) == Some(cleaned[k])
    ensures forall k :: 1 <= k < |cleaned| ==> IsCleanSegment(cleaned[k])
  {
    forall k | 1 <= k < |cleaned|
      ensures IsCleanSegment(cleaned[k])
    {
      CleanedSegment(segments[k], cleaned[k]);
    }
  }

  /** Some segment after the first is unsalvageable: `clear_name` raises. */
  predicate RaisesIndexError(text: string) {
    exists k :: 1 <= k < |Split(text, [Sep])| && Unsalvageable(Split(text, [Sep])[k])
  }

  /** The segment pass of `clear_name`: the first segment as it was, every
      later one cleaned, or the `IndexError` of the first bad segment. */
  function CleanSegments(text: string): (r: Result<seq<string>, NameError>)
    ensures r.Ok? ==>
      && |r.value| == |Split(text, [Sep])|
      && r.value[0] == Split(text, [Sep])[0]
      && (forall k :: 1 <= k < |r.value| ==> Salvage(Split(text, [Sep])[k]) == Some(r.value[k]))
      && forall k :: 1 <= k < |r.value| ==> IsCleanSegment(r.value[k])
    ensures r.Err? ==>
      && 1 <= r.error.segment < |Split(text, [Sep])|
      && Unsalvageable(Split(text, [Sep])[r.error.segment])
      && forall k :: 1 <= k < r.error.segment ==> !Unsalvageable(Split(text, [Sep])[k])
    ensures r.Err? <==> RaisesIndexError(text)
  {
    var segments := Split(text, [Sep]);
    CleanFromOk(segments, 1);
    match CleanFrom(segments, 1)
    case Err(e) => Err(e)
    case Ok(rest) =>
      var cleaned := [segments[0]] + rest;
      ShiftedImage(segments, rest, cleaned, Salvage);
      CleanedAll(segments, cleaned);
      Ok(cleaned)
  }

  function ClearName(text: string): (r: Result<string, NameError>)
    ensures r.Ok? ==> !Occurs("  ", r.value)
    ensures r.Ok? && |r.value| > 0 ==> !IsWhitespace(r.value[0]) && !IsWhitespace(r.value[|r.value| - 1])
    ensures r.Err? <==> RaisesIndexError(text)
  {
    match CleanSegments(text)
    case Err(e) => Err(e)
    case Ok(segments) => Ok(Tidy(Join(segments, [Sep])))
  }

  // ---------------------------------------------------------------------
  // The segments survive collapsing and stripping

  /** No forbidden character other than the separator itself. */
  predicate NoStray(s: string) {
    forall i :: 0 <= i < |s| ==> s[i] !in BanChars || s[i] == Sep
  }

  /** Nothing after the first separator is a forbidden character (other than
      further separators). */
  predicate CleanAfterSep(s: string)
    decreases |s|
  {
    |s| == 0 || (if s[0] == Sep then NoStray(s[1..]) else CleanAfterSep(s[1..]))
  }

  lemma {:induction false} NoStrayIsClean(s: string)
    requires NoStray(s)
    ensures CleanAfterSep(s)
    decreases |s|
  {
    if |s| > 0 && s[0] != Sep {
      NoStrayIsClean(s[1..]);
    }
  }

  lemma {:induction false} SepFreeIsClean(a: string)
    requires Sep !in a
    ensures CleanAfterSep(a)
    decreases |a|
  {
    if |a| > 0 {
      SepFreeIsClean(a[1..]);
    }
  }

  lemma {:induction false} CleanAfterFirstSep(a: string, b: string)
    requires Sep !in a && NoStray(b)
    ensures CleanAfterSep(a + [Sep] + b)
    decreases |a|
  {
    var s := a + [Sep] + b;
    if |a| == 0 {
      assert s[1..] == b;
    } else {
      assert s[1..] == a[1..] + [Sep] + b;
      CleanAfterFirstSep(a[1..], b);
    }
  }

  lemma {:induction false} JoinNoStray(parts: seq<string>, from: nat)
    requires from < |parts|
    requires forall k :: from <= k < |parts| ==> NoBanned(parts[k])
    ensures NoStray(Join(parts[from..], [Sep]))
    decreases |parts| - from
  {
    if from + 1 < |parts| {
      JoinNoStray(parts, from + 1);
      assert parts[from..][1..] == parts[from + 1..];
    }
  }

  lemma JoinCleanAfterSep(parts: seq<string>)
    requires |parts| > 0 && Sep !in parts[0]
    requires forall k :: 1 <= k < |parts| ==> NoBanned(parts[k])
    ensures CleanAfterSep(Join(parts, [Sep]))
  {
    if |parts| == 1 {
      SepFreeIsClean(parts[0]);
    } else {
      JoinNoStray(parts, 1);
      JoinFirstSep(parts[0], parts[1..]);
      assert [parts[0]] + parts[1..] == parts;
    }
  }

  lemma JoinFirstSep(head: string, tail: seq<string>)
    requires Sep !in head && |tail| > 0 && NoStray(Join(tail, [Sep]))
    ensures CleanAfterSep(Join([head] + tail, [Sep]))
  {
    assert ([head] + tail)[1..] == tail;
    CleanAfterFirstSep(head, Join(tail, [Sep]));
  }

  lemma {:induction false} SqueezeKeepsOthers(s: string, c: char)
    requires c != ' '
    ensures Count(Squeeze(s), c) == Count(s, c)
    ensures NoStray(s) ==> NoStray(Squeeze(s))
    ensures CleanAfterSep(s) ==> CleanAfterSep(Squeeze(s))
    decreases |s|
  {
    if |s| >= 2 {
      SqueezeKeepsOthers(s[1..], c);
      if NoStray(s) {
        assert NoStray(s[1..]);
      }
      if CleanAfterSep(s) && s[0] == Sep {
        NoStrayIsClean(s[1..]);
      }
      if !(s[0] == ' ' && s[1] == ' ') {
        assert ([s[0]] + Squeeze(s[1..]))[1..] == Squeeze(s[1..]);
      }
    }
  }

  lemma {:induction false} CleanPrefix(s: string, n: nat)
    requires n <= |s| && CleanAfterSep(s)
    ensures CleanAfterSep(s[..n])
    decreases |s|
  {
    if n > 0 {
      assert s[..n][1..] == s[1..][..n - 1];
      if s[0] != Sep {
        CleanPrefix(s[1..], n - 1);
      }
    }
  }

  lemma {:induction false} StripLeftKeepsOthers(s: string, c: char)
    requires !IsWhitespace(c)
    ensures Count(StripLeft(s), c) == Count(s, c)
    ensures CleanAfterSep(s) ==> CleanAfterSep(StripLeft(s))
    decreases |s|
  {
    if |s| > 0 && IsWhitespace(s[0]) {
      StripLeftKeepsOthers(s[1..], c);
    }
  }

  lemma {:induction false} StripRightKeepsOthers(s: string, c: char)
    requires !IsWhitespace(c)
    ensures Count(StripRight(s), c) == Count(s, c)
    ensures CleanAfterSep(s) ==> CleanAfterSep(StripRight(s))
    decreases |s|
  {
    if |s| > 0 && IsWhitespace(s[|s| - 1]) {
      var init := s[..|s| - 1];
      StripRightKeepsOthers(init, c);
      assert s == init + [s[|s| - 1]];
      CountAppend(init, [s[|s| - 1]], c);
      if CleanAfterSep(s) {
        CleanPrefix(s, |s| - 1);
      }
    }
  }

  lemma TidyKeepsSegments(s: string)
    ensures Count(Tidy(s), Sep) == Count(s, Sep)
    ensures CleanAfterSep(s) ==> CleanAfterSep(Tidy(s))
  {
    CollapseIsSqueeze(s);
    SqueezeKeepsOthers(s, Sep);
    StripLeftKeepsOthers(Squeeze(s), Sep);
    StripRightKeepsOthers(StripLeft(Squeeze(s)), Sep);
  }

  lemma {:induction false} SplitNoStray(s: string)
    requires NoStray(s)
    ensures forall k :: 0 <= k < |Split(s, [Sep])| ==> NoStray(Split(s, [Sep])[k])
    decreases |s|
  {
    if |s| > 0 {
      SplitNoStray(s[1..]);
    }
  }

  lemma {:induction false} SplitCleanAfterSep(s: string)
    requires CleanAfterSep(s)
    ensures forall k :: 1 <= k < |Split(s, [Sep])| ==> NoStray(Split(s, [Sep])[k])
    decreases |s|
  {
    if |s| > 0 {
      if s[0] == Sep {
        assert IsPrefix([Sep], s);
        SplitNoStray(s[1..]);
      } else {
        SplitCleanAfterSep(s[1..]);
      }
    }
  }

  lemma CleanTailParts(s: string)
    requires CleanAfterSep(s)
    ensures forall k :: 1 <= k < |Split(s, [Sep])| ==> NoBanned(Split(s, [Sep])[k])
  {
    var parts := Split(s, [Sep]);
    SplitCharParts(s, Sep);
    SplitCleanAfterSep(s);
    forall k | 1 <= k < |parts|
      ensures NoBanned(parts[k])
    {
      assert NoStray(parts[k]) && Sep !in parts[k];
      forall i | 0 <= i < |parts[k]|
        ensures parts[k][i] !in BanChars
      {
        assert parts[k][i] in parts[k];
      }
    }
  }

  lemma SegmentsSepFree(text: string)
    requires CleanSegments(text).Ok?
    ensures forall k :: 0 <= k < |CleanSegments(text).value| ==> Sep !in CleanSegments(text).value[k]
  {
    var segments := CleanSegments(text).value;
    SplitCharParts(text, Sep);
    forall k | 0 <= k < |segments|
      ensures Sep !in segments[k]
    {
      if k > 0 {
        assert IsCleanSegment(segments[k]);
        assert Sep == BanChars[1];
      }
    }
  }

  /** What `clear_name` keeps of the segment structure: as many backslashes
      and so as many segments as the input had, and no later segment holding
      a forbidden character. */
  lemma ClearNameSegments(text: string)
    requires ClearName(text).Ok?
    ensures Count(ClearName(text).value, Sep) == Count(text, Sep)
    ensures var parts := Split(ClearName(text).value, [Sep]);
      && |parts| == |Split(text, [Sep])|
      && forall k :: 1 <= k < |parts| ==> NoBanned(parts[k])
  {
    var segments := CleanSegments(text).value;
    SplitCharParts(text, Sep);
    SegmentsSepFree(text);
    var joined := Join(segments, [Sep]);
    SplitJoinChar(segments, Sep);
    SplitCharParts(joined, Sep);
    JoinCleanAfterSep(segments);
    TidyKeepsSegments(joined);
    var r := Tidy(joined);
    assert r == ClearName(text).value;
    SplitCharParts(r, Sep);
    CleanTailParts(r);
  }

  lemma {:induction false} DotsCount(s: string, c: char)
    requires AllDots(s) && c != '.'
    ensures Count(s, c) == 0
    decreases |s|
  {
    if |s| > 0 {
      DotsCount(s[1..], c);
    }
  }

  /** Stripping trailing dots drops nothing but dots. */
  lemma StripDotsKeeps(segment: string, stripped: string, c: char)
    requires StripTrailingDots(segment) == Some(stripped)
    requires c != '.'
    ensures Count(stripped, c) == Count(segment, c)
  {
    var dots := segment[|stripped|..];
    assert segment[..|stripped|] == stripped;
    assert stripped + dots == segment;
    CountAppend(stripped, dots, c);
    DotsCount(dots, c);
  }

  /** Salvaging a segment drops only forbidden characters and dots. */
  lemma SalvageKeeps(segment: string, cleaned: string, c: char)
    requires Salvage(segment) == Some(cleaned)
    requires c !in BanChars && c != '.'
    ensures Count(cleaned, c) == Count(segment, c)
  {
    StripDotsKeeps(RemoveBanned(segment), cleaned, c);
    RemoveBannedSpec(segment);
    WithoutDrops(segment, BanChars);
  }

  /** Collapsing and stripping drop only whitespace. */
  lemma TidyCount(s: string, c: char)
    requires !IsWhitespace(c)
    ensures Count(Tidy(s), c) == Count(s, c)
  {
    CollapseIsSqueeze(s);
    SqueezeKeepsOthers(s, c);
    StripLeftKeepsOthers(Squeeze(s), c);
    StripRightKeepsOthers(StripLeft(Squeeze(s)), c);
  }

  /** `clear_name` drops nothing but whitespace, forbidden characters and
      dots: every other character occurs in the result as often as in the
      input. */
  lemma ClearNameKeepsOthers(text: string, c: char)
    requires !IsWhitespace(c) && c !in BanChars && c != '.'
    ensures ClearName(text).Ok? ==> Count(ClearName(text).value, c) == Count(text, c)
  {
    if ClearName(text).Ok? {
      var parts := Split(text, [Sep]);
      var segments := CleanSegments(text).value;
      forall i | 0 <= i < |segments|
        ensures Count(segments[i], c) == Count(parts[i], c)
      {
        if i > 0 {
          SalvageKeeps(parts[i], segments[i], c);
        }
      }
      JoinCountPointwise(segments, parts, [Sep], c);
      JoinSplit(text, [Sep]);
      TidyCount(Join(segments, [Sep]), c);
    }
  }

  // ---------------------------------------------------------------------
  // The final strip can re-expose a dot

  /** `text` reads `a\b. `: its second segment ends in a dot hidden
      behind a trailing space. */
  predicate DottedExample(text: string) {
    |text| == 5 && text[0] == 'a' && text[1] == Sep && text[2] == 'b' && text[3] == '.' && text[4] == ' '
  }

  lemma {:induction false} WithoutKeeps(s: string, chars: string)
    requires forall i :: 0 <= i < |s| ==> s[i] !in chars
    ensures Without(s, chars) == s
    decreases |s|
  {
    if |s| > 0 {
      WithoutKeeps(s[1..], chars);
    }
  }

  lemma Banned(c: char)
    ensures c in BanChars <==> c == '/' || c == '\\' || c == '*' || c == '?' || c == '<' || c == '>' || c == '"' || c == '|' || c == ':'
  {
  }

  lemma {:induction false} NoPairNoOccur(s: string)
    requires forall i :: 0 <= i < |s| - 1 ==> s[i] != ' ' || s[i + 1] != ' '
    ensures !Occurs("  ", s)
    decreases |s|
  {
    if |s| > 0 {
      var t := s[1..];
      assert forall i :: 0 <= i < |t| ==> t[i] == s[i + 1];
      NoPairNoOccur(t);
      if |s| >= 2 {
        assert s[..2][0] == s[0] && s[..2][1] == s[1];
      }
    }
  }

  /** A text with exactly one separator splits into the two sides of it. */
  lemma SplitOnce(text: string, i: nat)
    requires i < |text| && text[i] == Sep
    requires forall j :: 0 <= j < |text| && j != i ==> text[j] != Sep
    ensures Split(text, [Sep]) == [text[..i], text[i + 1..]]
  {
    var parts := [text[..i], text[i + 1..]];
    assert text == parts[0] + [Sep] + parts[1];
    assert Join(parts, [Sep]) == text;
    assert Sep !in parts[0] by {
      assert forall j :: 0 <= j < |parts[0]| ==> parts[0][j] == text[j];
    }
    assert Sep !in parts[1] by {
      assert forall j :: 0 <= j < |parts[1]| ==> parts[1][j] == text[j + i + 1];
    }
    SplitJoinChar(parts, Sep);
  }

  /** A segment holding no forbidden character loses nothing. */
  lemma RemoveBannedKeeps(segment: string)
    requires NoBanned(segment)
    ensures RemoveBanned(segment) == segment
  {
    RemoveBannedSpec(segment);
    WithoutKeeps(segment, BanChars);
  }

  lemma SalvageDotted(segment: string)
    requires |segment| == 3 && segment[0] == 'b' && segment[1] == '.' && segment[2] == ' '
    ensures Salvage(segment) == Some(segment)
  {
    Banned('b');
    Banned('.');
    Banned(' ');
    assert NoBanned(segment);
    RemoveBannedKeeps(segment);
  }

  lemma SegmentsOfDotted(text: string)
    requires DottedExample(text)
    ensures CleanSegments(text) == Ok([text[..1], text[2..]])
  {
    var a, b := text[..1], text[2..];
    SplitOnce(text, 1);
    SalvageDotted(b);
    assert CleanFrom([a, b], 2) == Ok([]);
    assert [b] + [] == [b];
    assert [a, b][1] == b;
    assert CleanFrom([a, b], 1) == Ok([b]);
    assert [a] + [b] == [a, b];
  }

  lemma TidyOfDotted(text: string)
    requires DottedExample(text)
    ensures Tidy(text) == text[..4]
  {
    NoPairNoOccur(text);
    assert !IsWhitespace(text[0]);
    assert StripRight(text[..4]) == text[..4];
  }

  /** The final strip can leave a segment ending in a dot: `a\b. ` becomes
      `a\b.`, whose last segment ends in `.` although the dot pass kept
      `b. ` as it was. */
  lemma StripExposesDot(text: string)
    requires DottedExample(text)
    ensures ClearName(text) == Ok(text[..4])
    ensures text[..4][3] == '.'
  {
    SegmentsOfDotted(text);
    JoinDotted(text);
    TidyOfDotted(text);
    ClearNameOf(text, [text[..1], text[2..]]);
  }

  lemma JoinDotted(text: string)
    requires DottedExample(text)
    ensures Join([text[..1], text[2..]], [Sep]) == text
  {
  }

  lemma ClearNameOf(text: string, segments: seq<string>)
    requires CleanSegments(text) == Ok(segments)
    ensures ClearName(text) == Ok(Tidy(Join(segments, [Sep])))
  {
  }
}

=== FILE: materialize.dfy ===
/** The decisions `download_track` (ymd/core.py:111-150) takes around its
    I/O: whether and where lyrics come from, whether the album cover is
    fetched, reused from the shared cache or saved beside the track, and
    which tags are written. The API client and the downloaders are oracles:
    their answers are parameters, and each call is recorded as a request. */
module Materialize {
  import opened Wrappers
  import opened Music
  import opened Tags

  /** A call to the outside world, in the order the routine makes them. */
  datatype Request =
    | DownloadUrlOf(trackId: string, hq: bool)
    | AudioFile(url: string, target: string)
    | FullTrackInfo(trackId: string)
    | CoverBytes(url: string)
    | CoverFile(url: string, path: string)

  /** A request made on behalf of the cover. */
  predicate IsCoverRequest(q: Request) {
    q.CoverBytes? || q.CoverFile?
  }

  datatype LyricsOutcome = LyricsOutcome(lyrics: Option<string>, requests: seq<Request>)

  /** Lines 126-133. `fullTrack` is what `get_full_track_info(track.id)`
      answers: `None`, or a full track carrying the given lyrics. */
  function ResolveLyrics(addLyrics: bool, track: Track, fullTrack: Option<Option<string>>): (r: LyricsOutcome)
    ensures !(addLyrics && track.hasLyrics) ==> r.lyrics == None && r.requests == []
    ensures addLyrics && track.hasLyrics && track.kind.Full? ==>
      r.lyrics == track.kind.lyrics && r.requests == []
    ensures addLyrics && track.hasLyrics && track.kind.Basic? ==>
      && r.requests == [FullTrackInfo(track.id)]
      && (fullTrack.None? ==> r.lyrics == None)
      && (fullTrack.Some? ==> r.lyrics == fullTrack.value)
  {
    if addLyrics && track.hasLyrics then
      match track.kind
      case Full(lyrics) => LyricsOutcome(lyrics, [])
      case Basic =>
        match fullTrack
        case Some(lyrics) => LyricsOutcome(lyrics, [FullTrackInfo(track.id)])
        case None => LyricsOutcome(None, [FullTrackInfo(track.id)])
    else LyricsOutcome(None, [])
  }

  /** Lyrics are present only when asked for and announced, and come either
      from the track itself or from the one extra lookup. */
  lemma LyricsProvenance(addLyrics: bool, track: Track, fullTrack: Option<Option<string>>)
    ensures var r := ResolveLyrics(addLyrics, track, fullTrack);
      && |r.requests| <= 1
      && (r.lyrics.Some? ==> addLyrics && track.hasLyrics)
      && (r.lyrics.Some? ==>
            (track.kind.Full? && r.lyrics == track.kind.lyrics) ||
            (track.kind.Basic? && fullTrack == Some(r.lyrics)))
      && (r.requests != [] <==> addLyrics && track.hasLyrics && track.kind.Basic?)
  {
  }

  // ---------------------------------------------------------------------
  // The cover

  type CoverCache = map<string, seq<byte>>

  /** `covers_cache.get(album.id)` is truthy: present and not empty bytes. */
  predicate Cached(cache: CoverCache, albumId: string) {
    albumId in cache && |cache[albumId]| > 0
  }

  datatype CoverOutcome = CoverOutcome(cover: Option<seq<byte>>, cache: CoverCache, requests: seq<Request>)

  /** Lines 135-148. `coverUrl` is what `cover_url(cover_resolution)`
      answers, `download` what `download_bytes` returns for a URL,
      `sidecarPath` the `cover.jpg` beside the track and `sidecarIsFile`
      whether it is already a file. */
  function ResolveCover(
    coverUrl: Option<string>, embed: bool, cache: CoverCache, albumId: string,
    sidecarPath: string, sidecarIsFile: bool, download: string -> seq<byte>)
    : (r: CoverOutcome)
    ensures coverUrl.None? ==> r.cover == None && r.cache == cache && r.requests == []
    ensures coverUrl.Some? && embed && Cached(cache, albumId) ==>
      r.cover == Some(cache[albumId]) && r.cache == cache && r.requests == []
    ensures coverUrl.Some? && embed && !Cached(cache, albumId) ==>
      && r.requests == [CoverBytes(coverUrl.value)]
      && r.cover == Some(download(coverUrl.value))
      && albumId in r.cache && r.cache[albumId] == download(coverUrl.value)
      && r.cache.Keys == cache.Keys + {albumId}
      && (forall k :: k in cache && k != albumId ==> r.cache[k] == cache[k])
    ensures !embed ==> r.cover == None && r.cache == cache
    ensures coverUrl.Some? && !embed ==>
      r.requests == (if sidecarIsFile then [] else [CoverFile(coverUrl.value, sidecarPath)])
  {
    match coverUrl
    case None => CoverOutcome(None, cache, [])
    case Some(url) =>
      if embed then
        if Cached(cache, albumId) then CoverOutcome(Some(cache[albumId]), cache, [])
        else
          var data := download(url);
          CoverOutcome(Some(data), cache[albumId := data], [CoverBytes(url)])
      else if sidecarIsFile then CoverOutcome(None, cache, [])
      else CoverOutcome(None, cache, [CoverFile(url, sidecarPath)])
  }

  /** Once a non-empty cover is in the cache, a later track of the same
      album reuses it without a download, whatever its cover URL. */
  lemma CoverReused(
    url1: string, url2: string, cache: CoverCache, albumId: string,
    path: string, isFile: bool, download: string -> seq<byte>)
    requires |download(url1)| > 0
    ensures var first := ResolveCover(Some(url1), true, cache, albumId, path, isFile, download);
      var second := ResolveCover(Some(url2), true, first.cache, albumId, path, isFile, download);
      && second.requests == [] && second.cache == first.cache && second.cover == first.cover
  {
  }

  /** A cached empty cover is falsy, so it is fetched again. */
  lemma EmptyCoverRefetched(url: string, cache: CoverCache, albumId: string, path: string, isFile: bool, download: string -> seq<byte>)
    requires albumId in cache && cache[albumId] == []
    ensures ResolveCover(Some(url), true, cache, albumId, path, isFile, download).requests == [CoverBytes(url)]
  {
  }

  /** One embedded-cover lookup of a batch: the track's album and cover URL. */
  datatype CoverJob = CoverJob(albumId: string, url: string)

  // What holds of the first `n` jobs of a batch once they are done.

  predicate FetchedFresh(jobs: seq<CoverJob>, covers: seq<seq<byte>>, fetched: seq<bool>, download: string -> seq<byte>, n: nat)
    requires n <= |jobs| && n <= |covers| && n <= |fetched|
  {
    forall k :: 0 <= k < n && fetched[k] ==> covers[k] == download(jobs[k].url)
  }

  /** A cover not fetched came from the initial cache or from an earlier
      track of the same album. */
  predicate ReusedKnown(jobs: seq<CoverJob>, covers: seq<seq<byte>>, fetched: seq<bool>, cache0: CoverCache, n: nat)
    requires n <= |jobs| && n <= |covers| && n <= |fetched|
  {
    forall k :: 0 <= k < n && !fetched[k] ==>
      (Cached(cache0, jobs[k].albumId) && covers[k] == cache0[jobs[k].albumId]) ||
      (exists j :: 0 <= j < k && jobs[j].albumId == jobs[k].albumId && covers[j] == covers[k])
  }

  /** After a non-empty cover, later tracks of the album fetch nothing. */
  predicate FetchedOnce(jobs: seq<CoverJob>, covers: seq<seq<byte>>, fetched: seq<bool>, n: nat)
    requires n <= |jobs| && n <= |covers| && n <= |fetched|
  {
    forall j, k :: 0 <= j < k < n && jobs[j].albumId == jobs[k].albumId && |covers[j]| > 0 ==>
      !fetched[k] && covers[k] == covers[j]
  }

  /** Entries that were truthy at the start are never replaced. */
  ghost predicate KeepsCached(cache0: CoverCache, cache: CoverCache) {
    forall a :: Cached(cache0, a) ==> a in cache && cache[a] == cache0[a]
  }

  /** The cache holds every album seen, with its non-empty cover; an entry
      that became truthy came from a track of the batch. */
  ghost predicate CacheReflects(jobs: seq<CoverJob>, covers: seq<seq<byte>>, cache0: CoverCache, cache: CoverCache, n: nat)
    requires n <= |jobs| && n <= |covers|
  {
    && (forall k :: 0 <= k < n ==> jobs[k].albumId in cache)
    && (forall k :: 0 <= k < n && |covers[k]| > 0 ==> Cached(cache, jobs[k].albumId) && cache[jobs[k].albumId] == covers[k])
    && (forall a :: Cached(cache, a) && !Cached(cache0, a) ==>
          exists j :: 0 <= j < n && jobs[j].albumId == a && covers[j] == cache[a])
  }

  ghost predicate BatchState(
    jobs: seq<CoverJob>, covers: seq<seq<byte>>, fetched: seq<bool>,
    cache0: CoverCache, cache: CoverCache, download: string -> seq<byte>, n: nat)
  {
    && n <= |jobs| && |covers| == n && |fetched| == n
    && FetchedFresh(jobs, covers, fetched, download, n)
    && ReusedKnown(jobs, covers, fetched, cache0, n)
    && FetchedOnce(jobs, covers, fetched, n)
    && KeepsCached(cache0, cache)
    && CacheReflects(jobs, covers, cache0, cache, n)
  }

  // Each part of the batch state survives one more job.

  lemma FreshStep(jobs: seq<CoverJob>, covers: seq<seq<byte>>, fetched: seq<bool>, download: string -> seq<byte>, n: nat, c: seq<byte>, f: bool)
    requires n < |jobs| && |covers| == n && |fetched| == n
    requires FetchedFresh(jobs, covers, fetched, download, n)
    requires f ==> c == download(jobs[n].url)
    ensures FetchedFresh(jobs, covers + [c], fetched + [f], download, n + 1)
  {
    assert forall k :: 0 <= k < n ==> (covers + [c])[k] == covers[k] && (fetched + [f])[k] == fetched[k];
  }

  lemma ReusedStep(jobs: seq<CoverJob>, covers: seq<seq<byte>>, fetched: seq<bool>, cache0: CoverCache, n: nat, c: seq<byte>, f: bool)
    requires n < |jobs| && |covers| == n && |fetched| == n
    requires ReusedKnown(jobs, covers, fetched, cache0, n)
    requires !f ==>
      (Cached(cache0, jobs[n].albumId) && c == cache0[jobs[n].albumId]) ||
      (exists j :: 0 <= j < n && jobs[j].albumId == jobs[n].albumId && covers[j] == c)
    ensures ReusedKnown(jobs, covers + [c], fetched + [f], cache0, n + 1)
  {
    var covers', fetched' := covers + [c], fetched + [f];
    assert forall k :: 0 <= k < n ==> covers'[k] == covers[k] && fetched'[k] == fetched[k];
    forall k | 0 <= k < n + 1 && !fetched'[k]
      ensures (Cached(cache0, jobs[k].albumId) && covers'[k] == cache0[jobs[k].albumId]) ||
        (exists j :: 0 <= j < k && jobs[j].albumId == jobs[k].albumId && covers'[j] == covers'[k])
    {
      if k < n {
        if !(Cached(cache0, jobs[k].albumId) && covers[k] == cache0[jobs[k].albumId]) {
          var j :| 0 <= j < k && jobs[j].albumId == jobs[k].albumId && covers[j] == covers[k];
          assert covers'[j] == covers'[k];
        }
      } else if !(Cached(cache0, jobs[n].albumId) && c == cache0[jobs[n].albumId]) {
        var j :| 0 <= j < n && jobs[j].albumId == jobs[n].albumId && covers[j] == c;
        assert covers'[j] == covers'[k];
      }
    }
  }

  lemma OnceStep(jobs: seq<CoverJob>, covers: seq<seq<byte>>, fetched: seq<bool>, n: nat, c: seq<byte>, f: bool)
    requires n < |jobs| && |covers| == n && |fetched| == n
    requires FetchedOnce(jobs, covers, fetched, n)
    requires forall j :: 0 <= j < n && jobs[j].albumId == jobs[n].albumId && |covers[j]| > 0 ==> !f && c == covers[j]
    ensures FetchedOnce(jobs, covers + [c], fetched + [f], n + 1)
  {
    var covers', fetched' := covers + [c], fetched + [f];
    assert forall k :: 0 <= k < n ==> covers'[k] == covers[k] && fetched'[k] == fetched[k];
    assert covers'[n] == c && fetched'[n] == f;
  }

  lemma ReflectsHit(jobs: seq<CoverJob>, covers: seq<seq<byte>>, cache0: CoverCache, cache: CoverCache, n: nat)
    requires n < |jobs| && |covers| == n
    requires CacheReflects(jobs, covers, cache0, cache, n) && Cached(cache, jobs[n].albumId)
    ensures CacheReflects(jobs, covers + [cache[jobs[n].albumId]], cache0, cache, n + 1)
  {
    var covers' := covers + [cache[jobs[n].albumId]];
    assert forall k :: 0 <= k < n ==> covers'[k] == covers[k];
    forall a | Cached(cache, a) && !Cached(cache0, a)
      ensures exists j :: 0 <= j < n + 1 && jobs[j].albumId == a && covers'[j] == cache[a]
    {
      var j :| 0 <= j < n && jobs[j].albumId == a && covers[j] == cache[a];
      assert covers'[j] == cache[a];
    }
  }

  lemma ReflectsMiss(jobs: seq<CoverJob>, covers: seq<seq<byte>>, cache0: CoverCache, cache: CoverCache, n: nat, data: seq<byte>)
    requires n < |jobs| && |covers| == n
    requires CacheReflects(jobs, covers, cache0, cache, n) && !Cached(cache, jobs[n].albumId)
    requires KeepsCached(cache0, cache)
    ensures CacheReflects(jobs, covers + [data], cache0, cache[jobs[n].albumId := data], n + 1)
  {
    var a := jobs[n].albumId;
    var covers', cache' := covers + [data], cache[a := data];
    assert forall k :: 0 <= k < n ==> covers'[k] == covers[k];
    forall k | 0 <= k < n && |covers'[k]| > 0
      ensures Cached(cache', jobs[k].albumId) && cache'[jobs[k].albumId] == covers'[k]
    {
      assert jobs[k].albumId != a;
    }
    forall b | Cached(cache', b) && !Cached(cache0, b)
      ensures exists j :: 0 <= j < n + 1 && jobs[j].albumId == b && covers'[j] == cache'[b]
    {
      if b == a {
        assert jobs[n].albumId == b && covers'[n] == cache'[b];
      } else {
        var j :| 0 <= j < n && jobs[j].albumId == b && covers[j] == cache[b];
        assert covers'[j] == cache'[b];
      }
    }
  }

  /** A track whose album is cached reuses the entry. */
  lemma HitStep(
    jobs: seq<CoverJob>, covers: seq<seq<byte>>, fetched: seq<bool>,
    cache0: CoverCache, cache: CoverCache, download: string -> seq<byte>, n: nat)
    requires BatchState(jobs, covers, fetched, cache0, cache, download, n) && n < |jobs|
    requires Cached(cache, jobs[n].albumId)
    ensures BatchState(jobs, covers + [cache[jobs[n].albumId]], fetched + [false], cache0, cache, download, n + 1)
  {
    var a := jobs[n].albumId;
    var c := cache[a];
    FreshStep(jobs, covers, fetched, download, n, c, false);
    if !Cached(cache0, a) {
      var j :| 0 <= j < n && jobs[j].albumId == a && covers[j] == cache[a];
    }
    ReusedStep(jobs, covers, fetched, cache0, n, c, false);
    OnceStep(jobs, covers, fetched, n, c, false);
    ReflectsHit(jobs, covers, cache0, cache, n);
  }

  /** A track whose album is not cached downloads the cover and stores it. */
  lemma MissStep(
    jobs: seq<CoverJob>, covers: seq<seq<byte>>, fetched: seq<bool>,
    cache0: CoverCache, cache: CoverCache, download: string -> seq<byte>, n: nat)
    requires BatchState(jobs, covers, fetched, cache0, cache, download, n) && n < |jobs|
    requires !Cached(cache, jobs[n].albumId)
    ensures var data := download(jobs[n].url);
      BatchState(jobs, covers + [data], fetched + [true], cache0, cache[jobs[n].albumId := data], download, n + 1)
  {
    var a, data := jobs[n].albumId, download(jobs[n].url);
    FreshStep(jobs, covers, fetched, download, n, data, true);
    ReusedStep(jobs, covers, fetched, cache0, n, data, true);
    OnceStep(jobs, covers, fetched, n, data, true);
    ReflectsMiss(jobs, covers, cache0, cache, n, data);
    assert !Cached(cache0, a);
  }

  /** The embedded-cover step for a run of tracks sharing one cache, as the
      caller of `download_track` does. `fetched[k]` says whether track `k`
      downloaded its cover. */
  method EmbedCovers(jobs: seq<CoverJob>, cache0: CoverCache, download: string -> seq<byte>)
    returns (covers: seq<seq<byte>>, fetched: seq<bool>, cache: CoverCache)
    ensures |covers| == |jobs| && |fetched| == |jobs|
    ensures forall k :: 0 <= k < |jobs| && fetched[k] ==> covers[k] == download(jobs[k].url)
    ensures forall k :: 0 <= k < |jobs| && !fetched[k] ==>
      (Cached(cache0, jobs[k].albumId) && covers[k] == cache0[jobs[k].albumId]) ||
      (exists j :: 0 <= j < k && jobs[j].albumId == jobs[k].albumId && covers[j] == covers[k])
    ensures forall j, k :: 0 <= j < k < |jobs| && jobs[j].albumId == jobs[k].albumId && |covers[j]| > 0 ==>
      !fetched[k] && covers[k] == covers[j]
    ensures forall a :: Cached(cache0, a) ==> a in cache && cache[a] == cache0[a]
    ensures forall k :: 0 <= k < |jobs| ==> jobs[k].albumId in cache
  {
    covers, fetched, cache := [], [], cache0;
    var i := 0;
    while i < |jobs|
      invariant BatchState(jobs, covers, fetched, cache0, cache, download, i)
    {
      var job := jobs[i];
      var step := ResolveCover(Some(job.url), true, cache, job.albumId, "", false, download);
      if Cached(cache, job.albumId) {
        HitStep(jobs, covers, fetched, cache0, cache, download, i);
      } else {
        MissStep(jobs, covers, fetched, cache0, cache, download, i);
      }
      covers := covers + [step.cover.value];
      fetched := fetched + [step.requests != []];
      cache := step.cache;
      i := i + 1;
    }
  }

  // ---------------------------------------------------------------------
  // The whole routine

  datatype Outcome = Outcome(requests: seq<Request>, cache: CoverCache, tags: Result<TagSet, TagError>)

  /** `download_track`: fetch the audio, resolve lyrics and cover, write the
      tags. `downloadUrl` is the answer of `get_track_download_url`. */
  function DownloadTrack(
    track: Track, target: string, cache: CoverCache, hq: bool, addLyrics: bool, embedCover: bool,
    downloadUrl: string, fullTrack: Option<Option<string>>, coverUrl: Option<string>,
    sidecarPath: string, sidecarIsFile: bool, download: string -> seq<byte>, domain: string)
    : (r: Outcome)
    ensures |r.requests| >= 2 && r.requests[..2] == [DownloadUrlOf(track.id, hq), AudioFile(downloadUrl, target)]
    ensures |r.requests| <= 4
    ensures r.tags.Err? <==> |track.album.artists| == 0
    ensures r.tags.Ok? ==>
      && (r.tags.value.lyrics.Some? ==> addLyrics && track.hasLyrics)
      && (r.tags.value.cover.Some? ==> embedCover && coverUrl.Some?)
      && (r.tags.value.cover.Some? ==>
            track.album.id in r.cache && r.tags.value.cover.value.data == r.cache[track.album.id])
    ensures !embedCover ==> r.cache == cache
  {
    var lyrics := ResolveLyrics(addLyrics, track, fullTrack);
    var cover := ResolveCover(coverUrl, embedCover, cache, track.album.id, sidecarPath, sidecarIsFile, download);
    var requests := [DownloadUrlOf(track.id, hq), AudioFile(downloadUrl, target)] + lyrics.requests + cover.requests;
    assert requests[..2] == [DownloadUrlOf(track.id, hq), AudioFile(downloadUrl, target)];
    Outcome(requests, cover.cache, BuildTags(track, lyrics.lyrics, cover.cover, domain))
  }

  /** The tags written are those of `set_id3_tags` for the track itself,
      the resolved lyrics, the resolved cover and the client's domain. */
  lemma DownloadTrackTags(
    track: Track, target: string, cache: CoverCache, hq: bool, addLyrics: bool, embedCover: bool,
    downloadUrl: string, fullTrack: Option<Option<string>>, coverUrl: Option<string>,
    sidecarPath: string, sidecarIsFile: bool, download: string -> seq<byte>, domain: string)
    ensures var r := DownloadTrack(track, target, cache, hq, addLyrics, embedCover, downloadUrl,
                                   fullTrack, coverUrl, sidecarPath, sidecarIsFile, download, domain);
      var lyrics := ResolveLyrics(addLyrics, track, fullTrack).lyrics;
      var cover := ResolveCover(coverUrl, embedCover, cache, track.album.id, sidecarPath, sidecarIsFile, download).cover;
      r.tags == BuildTags(track, lyrics, cover, domain)
  {
  }

  /** The lyrics written: the track's own, or the answer of the one extra
      lookup a basic track needs. */
  lemma DownloadTrackLyrics(
    track: Track, target: string, cache: CoverCache, hq: bool, addLyrics: bool, embedCover: bool,
    downloadUrl: string, fullTrack: Option<Option<string>>, coverUrl: Option<string>,
    sidecarPath: string, sidecarIsFile: bool, download: string -> seq<byte>, domain: string)
    ensures var r := DownloadTrack(track, target, cache, hq, addLyrics, embedCover, downloadUrl,
                                   fullTrack, coverUrl, sidecarPath, sidecarIsFile, download, domain);
      && (FullTrackInfo(track.id) in r.requests <==> addLyrics && track.hasLyrics && track.kind.Basic?)
      && (r.tags.Ok? && addLyrics && track.hasLyrics && track.kind.Full? ==>
            r.tags.value.lyrics == track.kind.lyrics)
      && (r.tags.Ok? && addLyrics && track.hasLyrics && track.kind.Basic? ==>
            r.tags.value.lyrics == (if fullTrack.Some? then fullTrack.value else None))
  {
    var lyrics := ResolveLyrics(addLyrics, track, fullTrack);
    var cover := ResolveCover(coverUrl, embedCover, cache, track.album.id, sidecarPath, sidecarIsFile, download);
    assert forall q :: q in cover.requests ==> IsCoverRequest(q);
  }

  /** The embedded cover: the cached one when it is truthy, otherwise one
      download that is then cached. */
  lemma DownloadTrackCover(
    track: Track, target: string, cache: CoverCache, hq: bool, addLyrics: bool,
    downloadUrl: string, fullTrack: Option<Option<string>>, url: string,
    sidecarPath: string, sidecarIsFile: bool, download: string -> seq<byte>, domain: string)
    ensures var r := DownloadTrack(track, target, cache, hq, addLyrics, true, downloadUrl,
                                   fullTrack, Some(url), sidecarPath, sidecarIsFile, download, domain);
      var hit := Cached(cache, track.album.id);
      && (r.tags.Ok? ==>
            && r.tags.value.cover.Some?
            && r.tags.value.cover.value.data == (if hit then cache[track.album.id] else download(url)))
      && (CoverBytes(url) in r.requests <==> !hit)
      && r.cache == (if hit then cache else cache[track.album.id := download(url)])
  {
    var lyrics := ResolveLyrics(addLyrics, track, fullTrack);
    assert forall q :: q in lyrics.requests ==> q.FullTrackInfo?;
  }

  /** Without a cover URL nothing is fetched for the cover; without embedding
      the cover is saved beside the track unless a file is already there. */
  lemma DownloadTrackSidecar(
    track: Track, target: string, cache: CoverCache, hq: bool, addLyrics: bool, embedCover: bool,
    downloadUrl: string, fullTrack: Option<Option<string>>, coverUrl: Option<string>,
    sidecarPath: string, sidecarIsFile: bool, download: string -> seq<byte>, domain: string)
    ensures var r := DownloadTrack(track, target, cache, hq, addLyrics, embedCover, downloadUrl,
                                   fullTrack, coverUrl, sidecarPath, sidecarIsFile, download, domain);
      && (coverUrl.None? ==> r.cache == cache && forall q :: q in r.requests ==> !IsCoverRequest(q))
      && (!embedCover && sidecarIsFile ==> forall q :: q in r.requests ==> !IsCoverRequest(q))
      && (!embedCover && !sidecarIsFile && coverUrl.Some? ==>
            CoverFile(coverUrl.value, sidecarPath) in r.requests)
  {
    var lyrics := ResolveLyrics(addLyrics, track, fullTrack);
    assert forall q :: q in lyrics.requests ==> q.FullTrackInfo?;
  }
}

=== FILE: music.dfy ===
/** The track metadata the core reads (`BasicTrackInfo`, `FullTrackInfo` and
    the album and artist records they hold), as plain values. */
module Music {
  import opened Wrappers

  newtype byte = b: int | 0 <= b < 256

  datatype Artist = Artist(id: string, name: string)

  /** The first six fields of `release_date.timetuple()`. */
  datatype DateTime = DateTime(year: int, month: int, day: int, hour: int, minute: int, second: int)

  datatype Album = Album(
    id: string,
    title: string,
    year: int,
    releaseDate: Option<DateTime>,
    artists: seq<Artist>)

  /** A basic track, or a full one that already carries its lyrics. */
  datatype TrackKind = Basic | Full(lyrics: Option<string>)

  datatype Track = Track(
    id: string,
    number: int,
    discNumber: int,
    title: string,
    hasLyrics: bool,
    album: Album,
    artists: seq<Artist>,
    kind: TrackKind)
}

=== FILE: pathtemplate.dfy ===
/** `prepare_track_path` (ymd/core.py:37-65): render a path pattern for a
    track.

    The pattern is rewritten by one `str.replace` per placeholder, walking a
    fixed table in order; unless `unsafe_path` is set each value first goes
    through the safe-value substitution. The result is passed through
    `clear_name` and `.mp3` is appended. `album.artists[0]` is read before
    anything else, so a track whose album has no artist raises `IndexError`. */
module PathTemplate {
  import opened Wrappers
  import opened Strings
  import opened CharClasses
  import opened FileNames
  import opened SafeValues
  import opened Music

  /** The audio file extension appended to every rendered path. */
  const Suffix: string := ".mp3"

  /** The placeholders, in the order of the source's table. A placeholder
      that is a prefix of another comes after it. */
  const Tokens: seq<string> := [
    "#album-artist", "#artist-id", "#album-id", "#track-id", "#number-padded",
    "#number", "#artist", "#title", "#album", "#year"]

  datatype RenderError = NoAlbumArtist | BadSegment(cause: NameError)

  predicate NonEmptyTokens(tokens: seq<string>) {
    forall i :: 0 <= i < |tokens| ==> |tokens[i]| > 0
  }

  /** `str(replacement)` for each placeholder, in table order. `#artist-id`
      renders the artist's name, not its id, as in the source. */
  function RawValues(track: Track, numberText: string): (values: seq<string>)
    requires |track.album.artists| > 0
    ensures |values| == |Tokens|
  {
    var artist := track.album.artists[0];
    [ artist.name, artist.name, track.album.id, track.id, numberText,
      IntToStr(track.number), artist.name, track.title, track.album.title,
      IntToStr(track.album.year) ]
  }

  /** A value as it is inserted: raw in unsafe mode, substituted otherwise. */
  function Prepare(word: char -> bool, unsafePath: bool, raw: string): string {
    if unsafePath then raw else ClearValue(word, raw)
  }

  /** The values inserted for the placeholders: the raw ones in unsafe mode,
      otherwise ones made only of allowed characters and underscores. */
  function Values(word: char -> bool, unsafePath: bool, track: Track, numberText: string): (values: seq<string>)
    requires |track.album.artists| > 0
    ensures |values| == |Tokens|
    ensures unsafePath ==> values == RawValues(track, numberText)
    ensures !unsafePath ==> forall k :: 0 <= k < |values| ==>
      values[k] == ClearValue(word, RawValues(track, numberText)[k])
    ensures !unsafePath ==> forall k, i :: 0 <= k < |values| && 0 <= i < |values[k]| ==>
      Allowed(word, values[k][i]) || values[k][i] == '_'
  {
    var raw := RawValues(track, numberText);
    forall k | 0 <= k < |raw| {
      ClearValueShape(word, raw[k]);
    }
    seq(|raw|, i requires 0 <= i < |raw| => Prepare(word, unsafePath, raw[i]))
  }

  /** The loop `for placeholder, replacement in repl_dict.items()`: each token
      replaced everywhere in the whole text, one token after the other. */
  function Substitute(s: string, tokens: seq<string>, values: seq<string>): (r: string)
    requires |tokens| == |values| && NonEmptyTokens(tokens)
    ensures forall c :: c in r ==> c in s || exists k :: 0 <= k < |values| && c in values[k]
    decreases |tokens|
  {
    if |tokens| == 0 then s
    else
      var r := Substitute(ReplaceAll(s, tokens[0], values[0]), tokens[1..], values[1..]);
      ReplaceChars(s, tokens[0], values[0]);
      assert forall k :: 0 <= k < |values| - 1 ==> values[1..][k] == values[k + 1];
      r
  }

  /** The pattern once every placeholder has been replaced. */
  function RenderedText(word: char -> bool, pattern: string, track: Track, unsafePath: bool, numberText: string): string
    requires |track.album.artists| > 0
  {
    TokensNonEmpty();
    Substitute(pattern, Tokens, Values(word, unsafePath, track, numberText))
  }

  /** Each placeholder of the table, named, with the field it is replaced
      by: the album's first artist for the three artist placeholders, the
      album and track ids, the caller's padded number, `str()` of the track
      number, the title, the album title and `str()` of the year. */
  lemma PlaceholderFields(track: Track, numberText: string)
    requires |track.album.artists| > 0
    ensures var v, artist := RawValues(track, numberText), track.album.artists[0];
      && Tokens[0] == "#album-artist" && v[0] == artist.name
      && Tokens[1] == "#artist-id" && v[1] == artist.name
      && Tokens[2] == "#album-id" && v[2] == track.album.id
      && Tokens[3] == "#track-id" && v[3] == track.id
      && Tokens[4] == "#number-padded" && v[4] == numberText
      && Tokens[5] == "#number" && v[5] == IntToStr(track.number)
      && Tokens[6] == "#artist" && v[6] == artist.name
      && Tokens[7] == "#title" && v[7] == track.title
      && Tokens[8] == "#album" && v[8] == track.album.title
      && Tokens[9] == "#year" && v[9] == IntToStr(track.album.year)
  {
  }

  lemma TokensNonEmpty()
    ensures NonEmptyTokens(Tokens)
  {
  }

  function RenderPath(word: char -> bool, pattern: string, track: Track, unsafePath: bool, numberText: string)
    : (r: Result<string, RenderError>)
    ensures r.Ok? ==>
      && |r.value| >= |Suffix|
      && r.value[|r.value| - |Suffix|..] == Suffix
      && var stem := r.value[..|r.value| - |Suffix|];
         && !Occurs("  ", stem)
         && (|stem| > 0 ==> !IsWhitespace(stem[0]) && !IsWhitespace(stem[|stem| - 1]))
    ensures r == Err(NoAlbumArtist) <==> |track.album.artists| == 0
    ensures |track.album.artists| > 0 ==>
      (r.Ok? <==> !RaisesIndexError(RenderedText(word, pattern, track, unsafePath, numberText)))
    ensures r.Ok? ==>
      && |track.album.artists| > 0
      && var parts := Split(r.value[..|r.value| - |Suffix|], [Sep]);
         && |parts| == |Split(RenderedText(word, pattern, track, unsafePath, numberText), [Sep])|
         && forall k :: 1 <= k < |parts| ==> NoBanned(parts[k])
  {
    if |track.album.artists| == 0 then Err(NoAlbumArtist)
    else
      var text := RenderedText(word, pattern, track, unsafePath, numberText);
      match ClearName(text)
      case Err(e) => Err(BadSegment(e))
      case Ok(name) =>
        ClearNameSegments(text);
        assert (name + Suffix)[..|name|] == name;
        Ok(name + Suffix)
  }

  // ---------------------------------------------------------------------
  // The table

  /** No placeholder is a prefix of one that comes later, so a longer
      placeholder is always replaced before any placeholder that is a prefix
      of it; and the prefix pairs the order resolves do occur. */
  lemma LongerTokensFirst()
    ensures forall i, j :: 0 <= i < j < |Tokens| ==> !IsPrefix(Tokens[i], Tokens[j])
    ensures IsPrefix(Tokens[8], Tokens[0]) && IsPrefix(Tokens[8], Tokens[2])
    ensures IsPrefix(Tokens[5], Tokens[4]) && IsPrefix(Tokens[6], Tokens[1])
  {
    forall i, j | 0 <= i < j < |Tokens|
      ensures !IsPrefix(Tokens[i], Tokens[j])
    {
      var a, b := Tokens[i], Tokens[j];
      assert |a| <= |b| ==> b[..|a|] != a by {
        if |a| <= |b| {
          assert a[1] != b[1] || a[2] != b[2] || a[|a| - 1] != b[|a| - 1];
        }
      }
    }
  }

  /** `#album-artist`, `#artist-id` and `#artist` all render the name of the
      album's first artist. */
  lemma ArtistTokensAgree(word: char -> bool, unsafePath: bool, track: Track, numberText: string)
    requires |track.album.artists| > 0
    ensures var values := Values(word, unsafePath, track, numberText);
      && Tokens[0] == "#album-artist" && Tokens[1] == "#artist-id" && Tokens[6] == "#artist"
      && values[0] == values[1] == values[6]
      && values[0] == Prepare(word, unsafePath, track.album.artists[0].name)
  {
  }

  /** In safe mode no inserted value holds `#`, `/` or `\`, nor any other
      character `clear_name` forbids or the dot it strips. */
  lemma SafeValuesArePathSafe(word: char -> bool, track: Track, numberText: string)
    requires AsciiWordExact(word) && |track.album.artists| > 0
    ensures forall k, i :: 0 <= k < |Tokens| && 0 <= i < |Values(word, false, track, numberText)[k]| ==>
      Values(word, false, track, numberText)[k][i] !in "/\\#*?<>\"|:."
  {
    var raw := RawValues(track, numberText);
    forall k | 0 <= k < |Tokens|
      ensures forall i :: 0 <= i < |Values(word, false, track, numberText)[k]| ==>
        Values(word, false, track, numberText)[k][i] !in "/\\#*?<>\"|:."
    {
      ClearedIsPathSafe(word, raw[k]);
    }
  }

  /** Text in which no placeholder occurs passes the substitution unchanged. */
  lemma {:induction false} SubstituteAbsent(s: string, tokens: seq<string>, values: seq<string>)
    requires |tokens| == |values| && NonEmptyTokens(tokens)
    requires forall k :: 0 <= k < |tokens| ==> !Occurs(tokens[k], s)
    ensures Substitute(s, tokens, values) == s
    decreases |tokens|
  {
    if |tokens| > 0 {
      ReplaceAbsent(s, tokens[0], values[0]);
      SubstituteAbsent(s, tokens[1..], values[1..]);
    }
  }

  /** A pattern holding no placeholder renders as `clear_name` of itself
      followed by the suffix, whatever the track. */
  lemma PlainPattern(word: char -> bool, pattern: string, track: Track, unsafePath: bool, numberText: string)
    requires |track.album.artists| > 0
    requires forall k :: 0 <= k < |Tokens| ==> !Occurs(Tokens[k], pattern)
    ensures RenderPath(word, pattern, track, unsafePath, numberText) ==
      match ClearName(pattern)
      case Ok(name) => Ok(name + Suffix)
      case Err(e) => Err(BadSegment(e))
  {
    TokensNonEmpty();
    SubstituteAbsent(pattern, Tokens, Values(word, unsafePath, track, numberText));
  }

  /** In safe mode no value can bring in a backslash, so a pattern without
      one renders for every track whose album has an artist. */
  lemma RenderPathSucceeds(word: char -> bool, pattern: string, track: Track, numberText: string)
    requires AsciiWordExact(word) && |track.album.artists| > 0 && Sep !in pattern
    ensures RenderPath(word, pattern, track, false, numberText).Ok?
  {
    var values := Values(word, false, track, numberText);
    var text := RenderedText(word, pattern, track, false, numberText);
    SafeValuesArePathSafe(word, track, numberText);
    assert Sep !in text;
    SplitAbsent(text, Sep);
  }
}

=== FILE: safevalues.dfy ===
/** `FILENAME_CLEAR_RE.sub("_", value)` (ymd/core.py:16, 60-61): in safe mode
    every placeholder value has each maximal run of characters outside
    `[\w\-\'() ]` replaced by one underscore. `re.sub` scans left to right and
    the `+` quantifier is greedy, so a run is always taken whole. */
module SafeValues {
  import opened CharClasses

  predicate AllAllowed(word: char -> bool, s: string) {
    forall i :: 0 <= i < |s| ==> Allowed(word, s[i])
  }

  predicate NoneAllowed(word: char -> bool, s: string) {
    forall i :: 0 <= i < |s| ==> !Allowed(word, s[i])
  }

  /** What is left after the leading run of disallowed characters. */
  function SkipRun(word: char -> bool, s: string): (r: string)
    ensures |r| <= |s| && r == s[|s| - |r|..]
    ensures NoneAllowed(word, s[..|s| - |r|])
    ensures |r| > 0 ==> Allowed(word, r[0])
    decreases |s|
  {
    if |s| > 0 && !Allowed(word, s[0]) then
      var r := SkipRun(word, s[1..]);
      var skipped := s[1..][..|s| - 1 - |r|];
      assert s[..|s| - |r|] == [s[0]] + skipped;
      NoneAllowedCons(word, s[0], skipped);
      assert s[1..][|s| - 1 - |r|..] == s[|s| - |r|..];
      r
    else s
  }

  lemma NoneAllowedCons(word: char -> bool, c: char, t: string)
    requires !Allowed(word, c) && NoneAllowed(word, t)
    ensures NoneAllowed(word, [c] + t)
  {
    assert forall i :: 0 < i < |t| + 1 ==> ([c] + t)[i] == t[i - 1];
  }

  function ClearValue(word: char -> bool, s: string): string
    decreases |s|
  {
    if |s| == 0 then []
    else if Allowed(word, s[0]) then [s[0]] + ClearValue(word, s[1..])
    else "_" + ClearValue(word, SkipRun(word, s))
  }

  // ---------------------------------------------------------------------
  // What the substitution does

  /** Every character that survives is allowed; a run becomes one `_`, so
      nothing grows, and only the empty value substitutes to nothing. */
  lemma {:induction false} ClearValueShape(word: char -> bool, s: string)
    ensures var r := ClearValue(word, s);
      && |r| <= |s| && (|r| == 0 <==> |s| == 0)
      && forall i :: 0 <= i < |r| ==> Allowed(word, r[i]) || r[i] == '_'
    decreases |s|
  {
    if |s| > 0 {
      if Allowed(word, s[0]) {
        ClearValueShape(word, s[1..]);
      } else {
        ClearValueShape(word, SkipRun(word, s));
      }
    }
  }

  /** Text made only of allowed characters is left alone. */
  lemma {:induction false} ClearAllowed(word: char -> bool, s: string)
    requires AllAllowed(word, s)
    ensures ClearValue(word, s) == s
    decreases |s|
  {
    if |s| > 0 {
      ClearAllowed(word, s[1..]);
    }
  }

  /** A non-empty run of disallowed characters becomes exactly one `_`. */
  lemma ClearRun(word: char -> bool, run: string)
    requires |run| > 0 && NoneAllowed(word, run)
    ensures ClearValue(word, run) == "_"
  {
    SkipAll(word, run);
  }

  lemma {:induction false} SkipAll(word: char -> bool, run: string)
    requires NoneAllowed(word, run)
    ensures SkipRun(word, run) == []
    decreases |run|
  {
    if |run| > 0 {
      SkipAll(word, run[1..]);
    }
  }

  /** Cutting between an allowed character and anything else, or between
      anything and an allowed character, cuts no run: both halves are
      substituted independently. Together with `ClearAllowed` and
      `ClearRun` this pins the substitution down completely. */
  lemma {:induction false} ClearSplitsAtAllowed(word: char -> bool, a: string, b: string)
    requires |a| == 0 || |b| == 0 || Allowed(word, a[|a| - 1]) || Allowed(word, b[0])
    ensures ClearValue(word, a + b) == ClearValue(word, a) + ClearValue(word, b)
    decreases |a|, 2
  {
    if |a| == 0 {
      assert a + b == b;
    } else if |b| == 0 {
      assert a + b == a;
    } else if Allowed(word, a[0]) {
      AllowedFirst(word, a, b);
    } else {
      RunFirst(word, a, b);
    }
  }

  /** The case of `ClearSplitsAtAllowed` where `a` starts with an allowed
      character. */
  lemma {:induction false} AllowedFirst(word: char -> bool, a: string, b: string)
    requires |a| > 0 && |b| > 0 && Allowed(word, a[0])
    requires Allowed(word, a[|a| - 1]) || Allowed(word, b[0])
    ensures ClearValue(word, a + b) == ClearValue(word, a) + ClearValue(word, b)
    decreases |a|, 0
  {
    assert (a + b)[0] == a[0];
    assert (a + b)[1..] == a[1..] + b;
    ClearSplitsAtAllowed(word, a[1..], b);
  }

  /** The case of `ClearSplitsAtAllowed` where `a` starts with a run. */
  lemma {:induction false} RunFirst(word: char -> bool, a: string, b: string)
    requires |a| > 0 && |b| > 0 && !Allowed(word, a[0])
    requires Allowed(word, a[|a| - 1]) || Allowed(word, b[0])
    ensures ClearValue(word, a + b) == ClearValue(word, a) + ClearValue(word, b)
    decreases |a|, 1
  {
    if |SkipRun(word, a)| == 0 {
      assert Allowed(word, b[0]) by {
        assert a[..|a| - 0] == a;
      }
      WholeRunThenAllowed(word, a, b);
    } else {
      RunThenMore(word, a, b);
    }
  }

  /** `a` starts with a run that stops inside `a`. */
  lemma {:induction false} RunThenMore(word: char -> bool, a: string, b: string)
    requires |a| > 0 && |b| > 0 && !Allowed(word, a[0])
    requires |SkipRun(word, a)| > 0
    requires Allowed(word, a[|a| - 1]) || Allowed(word, b[0])
    ensures ClearValue(word, a + b) == ClearValue(word, a) + ClearValue(word, b)
    decreases |a|, 0
  {
    var rest := SkipRun(word, a);
    assert rest[|rest| - 1] == a[|a| - 1];
    SkipRunPrefix(word, a, b);
    ClearSplitsAtAllowed(word, rest, b);
    RunThenRest(word, a, b);
  }

  /** `a` is one run and `b` starts with an allowed character. */
  lemma WholeRunThenAllowed(word: char -> bool, a: string, b: string)
    requires |a| > 0 && !Allowed(word, a[0]) && SkipRun(word, a) == []
    requires |b| > 0 && Allowed(word, b[0])
    ensures ClearValue(word, a + b) == ClearValue(word, a) + ClearValue(word, b)
  {
    assert a[..|a| - 0] == a;
    ClearRun(word, a);
    SkipRunStops(word, a, b);
    assert SkipRun(word, a) + b == b;
    RunThenRest(word, a, b);
  }

  lemma RunThenRest(word: char -> bool, a: string, b: string)
    requires |a| > 0 && !Allowed(word, a[0])
    requires SkipRun(word, a + b) == SkipRun(word, a) + b
    ensures ClearValue(word, a + b) == "_" + ClearValue(word, SkipRun(word, a) + b)
  {
    assert (a + b)[0] == a[0];
  }

  lemma {:induction false} SkipRunStops(word: char -> bool, a: string, b: string)
    requires NoneAllowed(word, a)
    requires |b| > 0 && Allowed(word, b[0])
    ensures SkipRun(word, a + b) == b
    decreases |a|
  {
    if |a| > 0 {
      assert (a + b)[1..] == a[1..] + b;
      SkipRunStops(word, a[1..], b);
    } else {
      assert a + b == b;
    }
  }

  lemma {:induction false} SkipRunPrefix(word: char -> bool, a: string, b: string)
    requires |SkipRun(word, a)| > 0
    ensures SkipRun(word, a + b) == SkipRun(word, a) + b
    decreases |a|
  {
    if |a| > 0 && !Allowed(word, a[0]) {
      assert (a + b)[1..] == a[1..] + b;
      SkipRunPrefix(word, a[1..], b);
    }
  }

  /** Every character of the result is allowed: `_` is a word character. */
  lemma {:induction false} ClearIsAllowed(word: char -> bool, s: string)
    requires word('_')
    ensures AllAllowed(word, ClearValue(word, s))
    decreases |s|
  {
    if |s| > 0 {
      if Allowed(word, s[0]) {
        ClearIsAllowed(word, s[1..]);
      } else {
        ClearIsAllowed(word, SkipRun(word, s));
      }
    }
  }

  /** Substituting twice is substituting once. */
  lemma {:induction false} ClearIdempotent(word: char -> bool, s: string)
    requires word('_')
    ensures ClearValue(word, ClearValue(word, s)) == ClearValue(word, s)
  {
    ClearIsAllowed(word, s);
    ClearAllowed(word, ClearValue(word, s));
  }

  /** With Python's `\w`, a safe value holds none of the characters that
      would split, escape or start a placeholder: no `/`, `\` or `#`, and
      none of the other characters `clear_name` forbids. */
  lemma {:induction false} ClearedIsPathSafe(word: char -> bool, s: string)
    requires AsciiWordExact(word)
    ensures forall i :: 0 <= i < |ClearValue(word, s)| ==>
      ClearValue(word, s)[i] !in "/\\#*?<>\"|:."
  {
    var r := ClearValue(word, s);
    ClearIsAllowed(word, s);
    forall i | 0 <= i < |r|
      ensures r[i] !in "/\\#*?<>\"|:."
    {
      PathCharIsNotAllowed(word, r[i]);
    }
  }

  /** None of the characters a path gives meaning to is allowed. */
  lemma PathCharIsNotAllowed(word: char -> bool, c: char)
    requires AsciiWordExact(word)
    ensures c in "/\\#*?<>\"|:." ==> !Allowed(word, c)
  {
    if c in "/\\#*?<>\"|:." {
      assert (c as int) < 128 && !IsAsciiLetter(c) && !IsDigit(c) && c != '_';
    }
  }
}

=== FILE: strings.dfy ===
/** Python's `str` operations the core relies on, on `string` (`seq<char>`):
    `find` (as `Occurs`), `count` of one character, `split` and `join` with a
    separator, and `replace` (left to right, non-overlapping). */
module Strings {

  /** `p` is a prefix of `s`. */
  predicate IsPrefix(p: string, s: string) {
    |p| <= |s| && s[..|p|] == p
  }

  /** `s.find(p) != -1`: `p` occurs somewhere in `s`. */
  predicate Occurs(p: string, s: string)
    decreases |s|
  {
    IsPrefix(p, s) || (|s| > 0 && Occurs(p, s[1..]))
  }

  /** `s.count(c)` for a one-character `c`. */
  function Count(s: string, c: char): nat
    decreases |s|
  {
    if |s| == 0 then 0 else (if s[0] == c then 1 else 0) + Count(s[1..], c)
  }

  /** `sep.join(parts)`; the join of no parts is the empty string. */
  function Join(parts: seq<string>, sep: string): string
    decreases |parts|
  {
    if |parts| == 0 then []
    else if |parts| == 1 then parts[0]
    else parts[0] + sep + Join(parts[1..], sep)
  }

  /** `s.split(sep)` for a non-empty separator: always at least one part,
      and an empty `s` gives one empty part. */
  function Split(s: string, sep: string): (parts: seq<string>)
    requires |sep| > 0
    ensures |parts| > 0
    decreases |s|
  {
    if IsPrefix(sep, s) then [[]] + Split(s[|sep|..], sep)
    else if |s| == 0 then [[]]
    else
      var rest := Split(s[1..], sep);
      [[s[0]] + rest[0]] + rest[1..]
  }

  /** `s.replace(pat, rep)` for a non-empty pattern: occurrences are found
      left to right and do not overlap; replaced text is not re-scanned. */
  function ReplaceAll(s: string, pat: string, rep: string): string
    requires |pat| > 0
    decreases |s|
  {
    if IsPrefix(pat, s) then rep + ReplaceAll(s[|pat|..], pat, rep)
    else if |s| == 0 then []
    else [s[0]] + ReplaceAll(s[1..], pat, rep)
  }

  // ---------------------------------------------------------------------
  // Small facts about the definitions above

  lemma JoinCons(c: char, p: string, ps: seq<string>, sep: string)
    ensures Join([[c] + p] + ps, sep) == [c] + Join([p] + ps, sep)
  {
    if |ps| > 0 {
      assert ([[c] + p] + ps)[1..] == ps;
      assert ([p] + ps)[1..] == ps;
    }
  }

  lemma {:induction false} OccursInPrefix(p: string, s: string, u: string)
    requires Occurs(p, s)
    ensures Occurs(p, s + u)
    decreases |s|
  {
    if IsPrefix(p, s) {
      assert (s + u)[..|p|] == s[..|p|];
    } else {
      assert (s + u)[1..] == s[1..] + u;
      OccursInPrefix(p, s[1..], u);
    }
  }

  lemma {:induction false} OccursInSuffix(p: string, t: string, s: string)
    requires Occurs(p, s)
    ensures Occurs(p, t + s)
    decreases |t|
  {
    if |t| > 0 {
      assert (t + s)[1..] == t[1..] + s;
      OccursInSuffix(p, t[1..], s);
    } else {
      assert t + s == s;
    }
  }

  /** A pattern absent from `s` is absent from every prefix of `s`. */
  lemma AbsentFromPrefix(p: string, s: string, t: string)
    requires !Occurs(p, s) && |t| <= |s| && t == s[..|t|]
    ensures !Occurs(p, t)
  {
    assert t + s[|t|..] == s;
    if Occurs(p, t) {
      OccursInPrefix(p, t, s[|t|..]);
    }
  }

  /** A pattern absent from `s` is absent from every suffix of `s`. */
  lemma AbsentFromSuffix(p: string, s: string, t: string)
    requires !Occurs(p, s) && |t| <= |s| && t == s[|s| - |t|..]
    ensures !Occurs(p, t)
  {
    assert s[..|s| - |t|] + t == s;
    if Occurs(p, t) {
      OccursInSuffix(p, s[..|s| - |t|], t);
    }
  }

  lemma {:induction false} CountAppend(s: string, t: string, c: char)
    ensures Count(s + t, c) == Count(s, c) + Count(t, c)
    decreases |s|
  {
    if |s| == 0 {
      assert s + t == t;
    } else {
      assert (s + t)[1..] == s[1..] + t;
      CountAppend(s[1..], t, c);
    }
  }

  /** Joining parts that contain `c` equally often, one by one, gives texts
      that contain `c` equally often. */
  lemma {:induction false} JoinCountPointwise(a: seq<string>, b: seq<string>, sep: string, c: char)
    requires |a| == |b|
    requires forall i :: 0 <= i < |a| ==> Count(a[i], c) == Count(b[i], c)
    ensures Count(Join(a, sep), c) == Count(Join(b, sep), c)
    decreases |a|
  {
    if |a| > 1 {
      assert Count(a[0], c) == Count(b[0], c);
      JoinCountPointwise(a[1..], b[1..], sep, c);
      CountAppend(a[0] + sep, Join(a[1..], sep), c);
      CountAppend(a[0], sep, c);
      CountAppend(b[0] + sep, Join(b[1..], sep), c);
      CountAppend(b[0], sep, c);
    } else if |a| == 1 {
      assert Count(a[0], c) == Count(b[0], c);
    }
  }

  /** `replace` brings in no character that is in neither the text nor the
      replacement. */
  lemma {:induction false} ReplaceChars(s: string, pat: string, rep: string)
    requires |pat| > 0
    ensures forall c :: c in ReplaceAll(s, pat, rep) ==> c in s || c in rep
    decreases |s|
  {
    if IsPrefix(pat, s) {
      ReplaceChars(s[|pat|..], pat, rep);
      assert forall c :: c in s[|pat|..] ==> c in s;
    } else if |s| > 0 {
      ReplaceChars(s[1..], pat, rep);
      assert forall c :: c in s[1..] ==> c in s;
    }
  }

  // ---------------------------------------------------------------------
  // replace, split and join agree with each other

  /** A pattern that does not occur is left alone: text without any
      placeholder passes through `replace` unchanged. */
  lemma {:induction false} ReplaceAbsent(s: string, pat: string, rep: string)
    requires |pat| > 0
    requires !Occurs(pat, s)
    ensures ReplaceAll(s, pat, rep) == s
    decreases |s|
  {
    if |s| > 0 {
      ReplaceAbsent(s[1..], pat, rep);
    }
  }

  /** A pattern longer than the text cannot occur in it. */
  lemma {:induction false} TooLongToOccur(p: string, s: string)
    requires |p| > |s|
    ensures !Occurs(p, s)
    decreases |s|
  {
    if |s| > 0 {
      TooLongToOccur(p, s[1..]);
    }
  }

  /** Replacing a whole text by itself leaves only the replacement. */
  lemma ReplaceWhole(p: string, rep: string)
    requires |p| > 0
    ensures ReplaceAll(p, p, rep) == rep
  {
    assert p[..|p|] == p && p[|p|..] == [];
    assert rep + [] == rep;
  }

  /** Replacing with something shorter never lengthens the text, and
      shortens it whenever the pattern occurs. */
  lemma {:induction false} ReplaceShrinks(s: string, pat: string, rep: string)
    requires |pat| > 0 && |rep| < |pat|
    ensures |ReplaceAll(s, pat, rep)| <= |s|
    ensures Occurs(pat, s) ==> |ReplaceAll(s, pat, rep)| < |s|
    decreases |s|
  {
    if IsPrefix(pat, s) {
      ReplaceShrinks(s[|pat|..], pat, rep);
    } else if |s| > 0 {
      ReplaceShrinks(s[1..], pat, rep);
    }
  }

  /** `s.replace(pat, rep) == rep.join(s.split(pat))`. */
  lemma {:induction false} ReplaceIsJoinOfSplit(s: string, pat: string, rep: string)
    requires |pat| > 0
    ensures ReplaceAll(s, pat, rep) == Join(Split(s, pat), rep)
    decreases |s|, 1
  {
    if IsPrefix(pat, s) {
      ReplaceSplitAtMatch(s, pat, rep);
    } else if |s| > 0 {
      ReplaceSplitPastChar(s, pat, rep);
    }
  }

  lemma {:induction false} ReplaceSplitAtMatch(s: string, pat: string, rep: string)
    requires |pat| > 0 && IsPrefix(pat, s)
    ensures ReplaceAll(s, pat, rep) == Join(Split(s, pat), rep)
    decreases |s|, 0
  {
    ReplaceIsJoinOfSplit(s[|pat|..], pat, rep);
    var rest := Split(s[|pat|..], pat);
    assert ([[]] + rest)[1..] == rest;
  }

  lemma {:induction false} ReplaceSplitPastChar(s: string, pat: string, rep: string)
    requires |pat| > 0 && !IsPrefix(pat, s) && |s| > 0
    ensures ReplaceAll(s, pat, rep) == Join(Split(s, pat), rep)
    decreases |s|, 0
  {
    ReplaceIsJoinOfSplit(s[1..], pat, rep);
    var rest := Split(s[1..], pat);
    JoinCons(s[0], rest[0], rest[1..], rep);
    assert [rest[0]] + rest[1..] == rest;
  }

  /** Joining the parts of a split with the same separator gives back the
      original text. */
  lemma JoinSplit(s: string, sep: string)
    requires |sep| > 0
    ensures Join(Split(s, sep), sep) == s
  {
    ReplaceIsJoinOfSplit(s, sep, sep);
    ReplaceSelf(s, sep);
  }

  lemma {:induction false} ReplaceSelf(s: string, pat: string)
    requires |pat| > 0
    ensures ReplaceAll(s, pat, pat) == s
    decreases |s|
  {
    if IsPrefix(pat, s) {
      ReplaceSelf(s[|pat|..], pat);
      assert s == s[..|pat|] + s[|pat|..];
    } else if |s| > 0 {
      ReplaceSelf(s[1..], pat);
      assert s == [s[0]] + s[1..];
    }
  }

  /** Text without the character counts none of it. */
  lemma {:induction false} CountAbsent(s: string, c: char)
    requires c !in s
    ensures Count(s, c) == 0
    decreases |s|
  {
    if |s| > 0 {
      CountAbsent(s[1..], c);
    }
  }

  /** Text without the separator splits into itself alone. */
  lemma SplitAbsent(s: string, c: char)
    requires c !in s
    ensures Split(s, [c]) == [s]
  {
    CountAbsent(s, c);
    SplitCharParts(s, c);
    JoinSplit(s, [c]);
  }

  /** Splitting on one character: the parts contain no separator, and there
      is one part more than there are separators. */
  lemma {:induction false} SplitCharParts(s: string, c: char)
    ensures forall k :: 0 <= k < |Split(s, [c])| ==> c !in Split(s, [c])[k]
    ensures |Split(s, [c])| == Count(s, c) + 1
    decreases |s|
  {
    if |s| > 0 {
      SplitCharParts(s[1..], c);
      var rest := Split(s[1..], [c]);
      if IsPrefix([c], s) {
        assert Split(s, [c]) == [[]] + rest;
      } else {
        assert s[0] != c;
        var parts := Split(s, [c]);
        assert parts == [[s[0]] + rest[0]] + rest[1..];
        forall k | 0 <= k < |parts|
          ensures c !in parts[k]
        {
          if k > 0 {
            assert parts[k] == rest[k];
          }
        }
      }
    }
  }

  /** Splitting the join of separator-free parts gives the parts back. */
  lemma {:induction false} SplitJoinChar(parts: seq<string>, c: char)
    requires |parts| > 0
    requires forall k :: 0 <= k < |parts| ==> c !in parts[k]
    ensures Split(Join(parts, [c]), [c]) == parts
    decreases |parts|, |parts[0]|
  {
    var head := parts[0];
    if |head| == 0 {
      if |parts| == 1 {
        assert Join(parts, [c]) == [];
      } else {
        var j := Join(parts, [c]);
        assert j == [c] + Join(parts[1..], [c]);
        assert IsPrefix([c], j);
        assert j[1..] == Join(parts[1..], [c]);
        SplitJoinChar(parts[1..], c);
        assert parts == [[]] + parts[1..];
      }
    } else {
      var tail := [head[1..]] + parts[1..];
      assert tail[1..] == parts[1..];
      forall k | 0 <= k < |tail|
        ensures c !in tail[k]
      {
        if k == 0 {
          assert forall x :: x in head[1..] ==> x in head;
        } else {
          assert tail[k] == parts[k];
        }
      }
      SplitJoinChar(tail, c);
      assert head == [head[0]] + head[1..];
      assert parts == [[head[0]] + head[1..]] + parts[1..];
      JoinCons(head[0], head[1..], parts[1..], [c]);
      var j := Join(parts, [c]);
      assert j == [head[0]] + Join(tail, [c]);
      assert head[0] != c;
      assert !IsPrefix([c], j);
      assert j[1..] == Join(tail, [c]);
    }
  }
}

=== FILE: tags.dfy ===
/** `set_id3_tags` (ymd/core.py:68-99): the ID3 fields written for a track,
    as a plain record. Loading and saving the file are left out; what is
    modelled is which value goes into which field. */
module Tags {
  import opened Wrappers
  import opened Strings
  import opened Music

  /** `ENCODED_BY` (ymd/core.py:15). */
  const EncodedBy: string := "https://github.com/llistochek/yandex-music-downloader"

  /** The MIME type the cover image is written with. */
  const CoverMime: string := "image/jpeg"

  /** The separator between artist names in the artist field: `chr(0)`. */
  const ArtistSep: char := 0 as char

  /** A full timestamp when the album has a release date, its year otherwise. */
  datatype ReleaseDate = FullDate(date: DateTime) | YearOnly(year: int)

  datatype FrontCover = FrontCover(data: seq<byte>, mime: string)

  datatype TagSet = TagSet(
    artist: string,
    albumArtist: string,
    album: string,
    title: string,
    trackNum: int,
    discNum: int,
    releaseDate: ReleaseDate,
    originalReleaseDate: ReleaseDate,
    encodedBy: string,
    url: string,
    lyrics: Option<string>,
    cover: Option<FrontCover>)

  /** `track.album.artists[0]` raises `IndexError` on an album without artists. */
  datatype TagError = NoAlbumArtist

  function Names(artists: seq<Artist>): (names: seq<string>)
    ensures |names| == |artists| && forall i :: 0 <= i < |artists| ==> names[i] == artists[i].name
  {
    seq(|artists|, i requires 0 <= i < |artists| => artists[i].name)
  }

  /** The release date both date fields receive. */
  function ReleaseDateOf(album: Album): (d: ReleaseDate)
    ensures d.FullDate? <==> album.releaseDate.Some?
    ensures d.FullDate? ==> d.date == album.releaseDate.value
    ensures d.YearOnly? ==> d.year == album.year
  {
    match album.releaseDate
    case Some(date) => FullDate(date)
    case None => YearOnly(album.year)
  }

  /** The `audio_file_url` field. */
  function TrackUrl(domain: string, albumId: string, trackId: string): string {
    "https://" + domain + "/album/" + albumId + "/track/" + trackId
  }

  function BuildTags(track: Track, lyrics: Option<string>, cover: Option<seq<byte>>, domain: string)
    : (r: Result<TagSet, TagError>)
    ensures r.Err? <==> |track.album.artists| == 0
    ensures r.Ok? ==>
      var t := r.value;
      && t.albumArtist == track.album.artists[0].name
      && t.album == track.album.title && t.title == track.title
      && t.trackNum == track.number && t.discNum == track.discNumber
      && t.releaseDate == t.originalReleaseDate == ReleaseDateOf(track.album)
      && t.encodedBy == EncodedBy
      && t.url == TrackUrl(domain, track.album.id, track.id)
      && t.artist == Join(Names(track.artists), [ArtistSep])
      && t.lyrics == lyrics
      && (t.cover.Some? <==> cover.Some?)
      && (cover.Some? ==> t.cover.value == FrontCover(cover.value, CoverMime))
  {
    if |track.album.artists| == 0 then Err(NoAlbumArtist)
    else
      var date := ReleaseDateOf(track.album);
      Ok(TagSet(
        artist := Join(Names(track.artists), [ArtistSep]),
        albumArtist := track.album.artists[0].name,
        album := track.album.title,
        title := track.title,
        trackNum := track.number,
        discNum := track.discNumber,
        releaseDate := date,
        originalReleaseDate := date,
        encodedBy := EncodedBy,
        url := TrackUrl(domain, track.album.id, track.id),
        lyrics := lyrics,
        cover := match cover
          case Some(data) => Some(FrontCover(data, CoverMime))
          case None => None))
  }

  // ---------------------------------------------------------------------
  // Reading the fields back

  /** Splitting the artist field on `chr(0)` gives back the artists' names,
      when there is at least one and no name holds that character; a track
      without artists gets an empty field. */
  lemma ArtistFieldRoundTrip(track: Track, lyrics: Option<string>, cover: Option<seq<byte>>, domain: string)
    requires |track.album.artists| > 0
    ensures var r := BuildTags(track, lyrics, cover, domain);
      && r.Ok?
      && (|track.artists| == 0 ==> r.value.artist == "")
      && (|track.artists| > 0 && (forall i :: 0 <= i < |track.artists| ==> ArtistSep !in track.artists[i].name) ==>
            Split(r.value.artist, [ArtistSep]) == Names(track.artists))
  {
    if |track.artists| > 0 && forall i :: 0 <= i < |track.artists| ==> ArtistSep !in track.artists[i].name {
      SplitJoinChar(Names(track.artists), ArtistSep);
    }
  }

  /** A join of seven parts, one separator at a time: the shape of the track
      URL `https://{domain}/album/{album.id}/track/{track.id}` split on `/`. */
  lemma JoinSeven(a: string, b: string, c: string, d: string, e: string, f: string, g: string, sep: string)
    ensures Join([a, b, c, d, e, f, g], sep) == a + sep + (b + sep + (c + sep + (d + sep + (e + sep + (f + sep + g)))))
  {
    assert [a, b, c, d, e, f, g][1..] == [b, c, d, e, f, g];
    assert [b, c, d, e, f, g][1..] == [c, d, e, f, g];
    assert [c, d, e, f, g][1..] == [d, e, f, g];
    assert [d, e, f, g][1..] == [e, f, g];
    assert [e, f, g][1..] == [f, g];
    assert [f, g][1..] == [g];
    assert Join([f, g], sep) == f + sep + g;
    assert Join([e, f, g], sep) == e + sep + Join([f, g], sep);
    assert Join([d, e, f, g], sep) == d + sep + Join([e, f, g], sep);
    assert Join([c, d, e, f, g], sep) == c + sep + Join([d, e, f, g], sep);
    assert Join([b, c, d, e, f, g], sep) == b + sep + Join([c, d, e, f, g], sep);
  }

  /** The URL is the slash-join of its parts. */
  lemma TrackUrlIsJoin(domain: string, albumId: string, trackId: string)
    ensures TrackUrl(domain, albumId, trackId) == Join(["https:", "", domain, "album", albumId, "track", trackId], "/")
  {
    JoinSeven("https:", "", domain, "album", albumId, "track", trackId, "/");
    assert "https:" + "/" + ("" + "/" + domain) == "https://" + domain;
    assert "album" + "/" + albumId == "album/" + albumId;
    assert "track" + "/" + trackId == "track/" + trackId;
  }

  /** Splitting the URL on `/` recovers the domain, the album id and the
      track id, when none of them holds a slash. */
  lemma TrackUrlParts(domain: string, albumId: string, trackId: string)
    requires '/' !in domain && '/' !in albumId && '/' !in trackId
    ensures Split(TrackUrl(domain, albumId, trackId), "/") == ["https:", "", domain, "album", albumId, "track", trackId]
  {
    var parts := ["https:", "", domain, "album", albumId, "track", trackId];
    TrackUrlIsJoin(domain, albumId, trackId);
    assert forall k :: 0 <= k < |parts| ==> '/' !in parts[k];
    SplitJoinChar(parts, '/');
  }
}

=== FILE: templatescan.dfy ===
/** How the placeholder loop of `prepare_track_path` (ymd/core.py:58-62)
    relates to a single left-to-right scan of the pattern.

    `Expand` is the reference reading of a path template: scan the pattern
    once, and at each `#` insert the value of the first table placeholder
    that starts there; inserted values are never scanned again. The source
    instead runs one `str.replace` per placeholder over the whole text, so a
    later placeholder can match text that an earlier value produced. The two
    agree whenever no value contains `#` (always so in safe mode) and no
    stretch of the pattern between two `#` could be continued into a
    placeholder by what follows it; `RescanInUnsafeMode` and
    `RescanInSafeMode` show inputs where they do not agree. */
module TemplateScan {
  import opened Wrappers
  import opened Strings
  import opened CharClasses
  import opened FileNames
  import opened SafeValues
  import opened Music
  import opened PathTemplate

  /** Every token is `#` followed by a tail without `#`. */
  predicate HashTokens(tokens: seq<string>) {
    forall k :: 0 <= k < |tokens| ==> |tokens[k]| > 0 && tokens[k][0] == '#' && '#' !in tokens[k][1..]
  }

  predicate HashFree(values: seq<string>) {
    forall k :: 0 <= k < |values| ==> '#' !in values[k]
  }

  /** The index of the first token in table order that starts `s`. */
  function FirstMatch(s: string, tokens: seq<string>): (r: Option<nat>)
    ensures r.Some? ==> r.value < |tokens| && IsPrefix(tokens[r.value], s)
    ensures r.Some? ==> forall k :: 0 <= k < r.value ==> !IsPrefix(tokens[k], s)
    ensures r.None? ==> forall k :: 0 <= k < |tokens| ==> !IsPrefix(tokens[k], s)
    decreases |tokens|
  {
    if |tokens| == 0 then None
    else if IsPrefix(tokens[0], s) then Some(0)
    else match FirstMatch(s, tokens[1..])
      case None => None
      case Some(k) => Some(k + 1)
  }

  /** `FirstMatch` picks `k` when token `k` starts `s` and no earlier one
      does. */
  lemma {:induction false} FirstMatchAt(s: string, tokens: seq<string>, k: nat)
    requires k < |tokens| && IsPrefix(tokens[k], s)
    requires forall j :: 0 <= j < k ==> !IsPrefix(tokens[j], s)
    ensures FirstMatch(s, tokens) == Some(k)
    decreases k
  {
    if k > 0 {
      FirstMatchAt(s, tokens[1..], k - 1);
    }
  }

  /** The single-scan rendering of a template. */
  function Expand(s: string, tokens: seq<string>, values: seq<string>): string
    requires |tokens| == |values| && NonEmptyTokens(tokens)
    decreases |s|
  {
    if |s| == 0 then []
    else match FirstMatch(s, tokens)
      case Some(k) => values[k] + Expand(s[|tokens[k]|..], tokens, values)
      case None => [s[0]] + Expand(s[1..], tokens, values)
  }

  // ---------------------------------------------------------------------
  // The pattern as pieces between `#`

  /** A stretch of text: one already produced by a replacement (holding no
      `#`), or a `#` with the text up to the next `#` still to be matched. */
  datatype Piece = Done(text: string) | Open(tail: string)

  function FlatPiece(p: Piece): string {
    match p
    case Done(t) => t
    case Open(t) => "#" + t
  }

  function Flat(pieces: seq<Piece>): string
    decreases |pieces|
  {
    if |pieces| == 0 then [] else FlatPiece(pieces[0]) + Flat(pieces[1..])
  }

  predicate PieceOk(p: Piece) {
    match p
    case Done(t) => '#' !in t
    case Open(t) => '#' !in t
  }

  predicate PiecesOk(pieces: seq<Piece>) {
    forall i :: 0 <= i < |pieces| ==> PieceOk(pieces[i])
  }

  /** Some placeholder's tail properly extends `tail`: what follows the
      stretch could complete a placeholder. */
  predicate Extendable(tail: string, tokens: seq<string>) {
    exists k :: 0 <= k < |tokens| && |tail| + 1 < |tokens[k]| && IsPrefix(tail, tokens[k][1..])
  }

  /** No open stretch other than the last can be completed across its end. */
  predicate NoCrossing(pieces: seq<Piece>, tokens: seq<string>) {
    forall i :: 0 <= i < |pieces| - 1 && pieces[i].Open? ==> !Extendable(pieces[i].tail, tokens)
  }

  /** One `replace` pass on one piece. */
  function PassPiece(p: Piece, token: string, value: string): Piece
    requires |token| > 0
  {
    match p
    case Done(_) => p
    case Open(t) => if IsPrefix(token[1..], t) then Done(value + t[|token| - 1..]) else p
  }

  function Pass(pieces: seq<Piece>, token: string, value: string): (r: seq<Piece>)
    requires |token| > 0
    ensures |r| == |pieces|
  {
    seq(|pieces|, i requires 0 <= i < |pieces| => PassPiece(pieces[i], token, value))
  }

  /** All passes on one piece. */
  function Resolve(p: Piece, tokens: seq<string>, values: seq<string>): Piece
    requires |tokens| == |values| && NonEmptyTokens(tokens)
    decreases |tokens|
  {
    if |tokens| == 0 then p
    else Resolve(PassPiece(p, tokens[0], values[0]), tokens[1..], values[1..])
  }

  function ResolveAll(pieces: seq<Piece>, tokens: seq<string>, values: seq<string>): (r: seq<Piece>)
    requires |tokens| == |values| && NonEmptyTokens(tokens)
    ensures |r| == |pieces|
  {
    seq(|pieces|, i requires 0 <= i < |pieces| => Resolve(pieces[i], tokens, values))
  }

  // ---------------------------------------------------------------------
  // One replace pass acts piece by piece

  lemma {:induction false} ReplaceAfterPlain(l: string, y: string, token: string, value: string)
    requires |token| > 0 && token[0] == '#' && '#' !in l
    ensures ReplaceAll(l + y, token, value) == l + ReplaceAll(y, token, value)
    decreases |l|
  {
    if |l| == 0 {
      assert l + y == y;
    } else {
      assert l[0] in l;
      if |token| <= |l + y| {
        assert (l + y)[..|token|][0] == l[0] != token[0];
      }
      assert (l + y)[1..] == l[1..] + y;
      ReplaceAfterPlain(l[1..], y, token, value);
    }
  }

  lemma ReplaceOpen(t: string, y: string, token: string, value: string)
    requires |token| > 0 && token[0] == '#' && '#' !in token[1..]
    requires '#' !in t && '#' !in value
    requires |y| == 0 || y[0] == '#' || !(|t| + 1 < |token| && IsPrefix(t, token[1..]))
    ensures ReplaceAll("#" + t + y, token, value)
      == FlatPiece(PassPiece(Open(t), token, value)) + ReplaceAll(y, token, value)
  {
    if IsPrefix(token[1..], t) {
      ReplaceOpenMatch(t, y, token, value);
    } else {
      ReplaceOpenNoMatch(t, y, token, value);
    }
  }

  lemma ReplaceOpenMatch(t: string, y: string, token: string, value: string)
    requires |token| > 0 && token[0] == '#' && '#' !in t
    requires IsPrefix(token[1..], t)
    ensures ReplaceAll("#" + t + y, token, value)
      == value + t[|token| - 1..] + ReplaceAll(y, token, value)
  {
    var s := "#" + t + y;
    var u := token[1..];
    assert token == "#" + u;
    assert s[..|token|] == "#" + t[..|u|] == token;
    assert s[|token|..] == t[|u|..] + y;
    assert forall x :: x in t[|u|..] ==> x in t;
    ReplaceAfterPlain(t[|u|..], y, token, value);
  }

  lemma ReplaceOpenNoMatch(t: string, y: string, token: string, value: string)
    requires |token| > 0 && token[0] == '#' && '#' !in token[1..] && '#' !in t
    requires !IsPrefix(token[1..], t)
    requires |y| == 0 || y[0] == '#' || !(|t| + 1 < |token| && IsPrefix(t, token[1..]))
    ensures ReplaceAll("#" + t + y, token, value) == "#" + t + ReplaceAll(y, token, value)
  {
    var s := "#" + t + y;
    NoMatchAtOpen(t, y, token);
    ReplaceSkipsHead(s, token, value);
    assert s[1..] == t + y;
    ReplaceAfterPlain(t, y, token, value);
    assert [s[0]] == "#";
  }

  /** Where the pattern does not start, `replace` keeps the first character. */
  lemma ReplaceSkipsHead(s: string, pat: string, rep: string)
    requires |pat| > 0 && |s| > 0 && !IsPrefix(pat, s)
    ensures ReplaceAll(s, pat, rep) == [s[0]] + ReplaceAll(s[1..], pat, rep)
  {
  }

  lemma NoMatchAtOpen(t: string, y: string, token: string)
    requires |token| > 0 && token[0] == '#' && '#' !in token[1..]
    requires !IsPrefix(token[1..], t)
    requires |y| == 0 || y[0] == '#' || !(|t| + 1 < |token| && IsPrefix(t, token[1..]))
    ensures !IsPrefix(token, "#" + t + y)
  {
    var s := "#" + t + y;
    var u := token[1..];
    if |token| <= |s| {
      var head := s[..|token|];
      if |u| <= |t| {
        assert head[1..] == t[..|u|];
        assert t[..|u|] != u;
      } else if !IsPrefix(t, u) {
        assert head[1..|t| + 1] == t;
        assert t != u[..|t|];
      } else {
        assert |y| > 0 && y[0] == '#';
        assert head[|t| + 1] == '#';
        assert u[|t|] in u;
        assert token[|t| + 1] != '#';
      }
    }
  }

  lemma {:induction false} PassFlat(pieces: seq<Piece>, tokens: seq<string>, k: nat, value: string)
    requires HashTokens(tokens) && k < |tokens|
    requires PiecesOk(pieces) && NoCrossing(pieces, tokens) && '#' !in value
    ensures ReplaceAll(Flat(pieces), tokens[k], value) == Flat(Pass(pieces, tokens[k], value))
    decreases |pieces|
  {
    var token := tokens[k];
    if |pieces| > 0 {
      var rest := pieces[1..];
      assert PiecesOk(rest) && NoCrossing(rest, tokens) by {
        assert forall i :: 0 <= i < |rest| ==> rest[i] == pieces[i + 1];
      }
      PassFlat(rest, tokens, k, value);
      assert Pass(pieces, token, value)[1..] == Pass(rest, token, value);
      match pieces[0]
      case Done(l) =>
        ReplaceAfterPlain(l, Flat(rest), token, value);
      case Open(t) =>
        if |rest| > 0 {
          assert !Extendable(t, tokens);
          match rest[0]
          case Open(_) =>
          case Done(_) =>
            assert !(|t| + 1 < |token| && IsPrefix(t, token[1..]));
        }
        ReplaceOpen(t, Flat(rest), token, value);
    }
  }

  lemma PassKeepsShape(pieces: seq<Piece>, tokens: seq<string>, token: string, value: string)
    requires |token| > 0
    requires PiecesOk(pieces) && NoCrossing(pieces, tokens) && '#' !in value
    ensures PiecesOk(Pass(pieces, token, value)) && NoCrossing(Pass(pieces, token, value), tokens)
  {
    var r := Pass(pieces, token, value);
    forall i | 0 <= i < |r|
      ensures PieceOk(r[i])
    {
      if pieces[i].Open? && IsPrefix(token[1..], pieces[i].tail) {
        var t := pieces[i].tail;
        assert forall x :: x in t[|token| - 1..] ==> x in t;
      }
    }
  }

  lemma ExtendableFewerTokens(t: string, tokens: seq<string>)
    requires |tokens| > 0
    ensures Extendable(t, tokens[1..]) ==> Extendable(t, tokens)
  {
    if Extendable(t, tokens[1..]) {
      var k :| 0 <= k < |tokens[1..]| && |t| + 1 < |tokens[1..][k]| && IsPrefix(t, tokens[1..][k][1..]);
      assert tokens[1..][k] == tokens[k + 1];
    }
  }

  lemma NoCrossingFewerTokens(pieces: seq<Piece>, tokens: seq<string>)
    requires |tokens| > 0 && NoCrossing(pieces, tokens)
    ensures NoCrossing(pieces, tokens[1..])
  {
    forall i | 0 <= i < |pieces| - 1 && pieces[i].Open?
      ensures !Extendable(pieces[i].tail, tokens[1..])
    {
      ExtendableFewerTokens(pieces[i].tail, tokens);
    }
  }

  /** The whole placeholder loop acts piece by piece. */
  lemma {:induction false} SubstituteFlat(pieces: seq<Piece>, tokens: seq<string>, values: seq<string>)
    requires |tokens| == |values| && HashTokens(tokens) && HashFree(values)
    requires PiecesOk(pieces) && NoCrossing(pieces, tokens)
    ensures Substitute(Flat(pieces), tokens, values) == Flat(ResolveAll(pieces, tokens, values))
    decreases |tokens|
  {
    if |tokens| == 0 {
      assert ResolveAll(pieces, tokens, values) == pieces;
    } else {
      var passed := Pass(pieces, tokens[0], values[0]);
      PassFlat(pieces, tokens, 0, values[0]);
      PassKeepsShape(pieces, tokens, tokens[0], values[0]);
      NoCrossingFewerTokens(passed, tokens);
      assert HashTokens(tokens[1..]) by {
        assert forall k :: 0 <= k < |tokens[1..]| ==> tokens[1..][k] == tokens[k + 1];
      }
      SubstituteFlat(passed, tokens[1..], values[1..]);
      assert ResolveAll(passed, tokens[1..], values[1..]) == ResolveAll(pieces, tokens, values);
    }
  }

  // ---------------------------------------------------------------------
  // What one piece resolves to

  lemma {:induction false} ResolveDone(text: string, tokens: seq<string>, values: seq<string>)
    requires |tokens| == |values| && NonEmptyTokens(tokens)
    ensures Resolve(Done(text), tokens, values) == Done(text)
    decreases |tokens|
  {
    if |tokens| > 0 {
      ResolveDone(text, tokens[1..], values[1..]);
    }
  }

  lemma OpenMatch(t: string, token: string)
    requires |token| > 0 && token[0] == '#'
    ensures IsPrefix(token[1..], t) <==> IsPrefix(token, "#" + t)
  {
    if IsPrefix(token[1..], t) {
      assert ("#" + t)[..|token|] == "#" + t[..|token| - 1];
      assert token == "#" + token[1..];
    }
    if IsPrefix(token, "#" + t) {
      assert ("#" + t)[..|token|][1..] == t[..|token| - 1];
    }
  }

  /** An open piece becomes the value of the first placeholder, in table
      order, that starts it, followed by the rest of its text; with none it
      stays as it was. */
  lemma {:induction false} ResolveOpen(t: string, tokens: seq<string>, values: seq<string>)
    requires |tokens| == |values| && HashTokens(tokens)
    ensures Resolve(Open(t), tokens, values) ==
      match FirstMatch("#" + t, tokens)
      case Some(k) => Done(values[k] + t[|tokens[k]| - 1..])
      case None => Open(t)
    decreases |tokens|
  {
    if |tokens| > 0 {
      OpenMatch(t, tokens[0]);
      assert HashTokens(tokens[1..]) by {
        assert forall k :: 0 <= k < |tokens[1..]| ==> tokens[1..][k] == tokens[k + 1];
      }
      if IsPrefix(tokens[0][1..], t) {
        ResolveDone(values[0] + t[|tokens[0]| - 1..], tokens[1..], values[1..]);
      } else {
        ResolveOpen(t, tokens[1..], values[1..]);
      }
    }
  }

  // ---------------------------------------------------------------------
  // The single scan acts piece by piece

  lemma {:induction false} FirstMatchAgrees(s1: string, s2: string, tokens: seq<string>)
    requires forall k :: 0 <= k < |tokens| ==> (IsPrefix(tokens[k], s1) <==> IsPrefix(tokens[k], s2))
    ensures FirstMatch(s1, tokens) == FirstMatch(s2, tokens)
    decreases |tokens|
  {
    if |tokens| > 0 {
      FirstMatchAgrees(s1, s2, tokens[1..]);
    }
  }

  lemma {:induction false} ExpandAfterPlain(l: string, y: string, tokens: seq<string>, values: seq<string>)
    requires |tokens| == |values| && HashTokens(tokens) && '#' !in l
    ensures Expand(l + y, tokens, values) == l + Expand(y, tokens, values)
    decreases |l|
  {
    if |l| == 0 {
      assert l + y == y;
    } else {
      var s := l + y;
      assert l[0] in l;
      forall k | 0 <= k < |tokens|
        ensures !IsPrefix(tokens[k], s)
      {
        if |tokens[k]| <= |s| {
          assert s[..|tokens[k]|][0] == l[0] != tokens[k][0];
        }
      }
      assert s[1..] == l[1..] + y;
      ExpandAfterPlain(l[1..], y, tokens, values);
    }
  }

  /** A placeholder cannot run past the end of an open piece into a `#`. */
  lemma MatchStaysInPiece(t: string, y: string, token: string)
    requires |token| > 0 && token[0] == '#' && '#' !in token[1..]
    requires |y| == 0 || y[0] == '#'
    ensures IsPrefix(token, "#" + t + y) <==> IsPrefix(token, "#" + t)
  {
    var s := "#" + t + y;
    if |token| <= |t| + 1 {
      assert s[..|token|] == ("#" + t)[..|token|];
    } else if |token| <= |s| {
      assert |y| > 0;
      assert s[|t| + 1] == '#';
      assert token[|t| + 1] in token[1..];
      assert s[..|token|][|t| + 1] != token[|t| + 1];
    }
  }

  lemma ExpandOpen(t: string, y: string, tokens: seq<string>, values: seq<string>)
    requires |tokens| == |values| && HashTokens(tokens) && '#' !in t
    requires |y| == 0 || y[0] == '#'
    ensures Expand("#" + t + y, tokens, values)
      == FlatPiece(Resolve(Open(t), tokens, values)) + Expand(y, tokens, values)
  {
    var s := "#" + t + y;
    forall k | 0 <= k < |tokens|
      ensures IsPrefix(tokens[k], s) <==> IsPrefix(tokens[k], "#" + t)
    {
      MatchStaysInPiece(t, y, tokens[k]);
    }
    FirstMatchAgrees(s, "#" + t, tokens);
    ResolveOpen(t, tokens, values);
    if FirstMatch("#" + t, tokens).Some? {
      ExpandOpenMatch(t, y, tokens, values, FirstMatch("#" + t, tokens).value);
    } else {
      ExpandOpenNoMatch(t, y, tokens, values);
    }
  }

  lemma ExpandAtMatch(s: string, tokens: seq<string>, values: seq<string>, k: nat)
    requires |tokens| == |values| && NonEmptyTokens(tokens) && |s| > 0
    requires FirstMatch(s, tokens) == Some(k)
    ensures Expand(s, tokens, values) == values[k] + Expand(s[|tokens[k]|..], tokens, values)
  {
  }

  lemma ExpandAtNoMatch(s: string, tokens: seq<string>, values: seq<string>)
    requires |tokens| == |values| && NonEmptyTokens(tokens) && |s| > 0
    requires FirstMatch(s, tokens) == None
    ensures Expand(s, tokens, values) == [s[0]] + Expand(s[1..], tokens, values)
  {
  }

  lemma ExpandHashMatch(t: string, y: string, tokens: seq<string>, values: seq<string>, k: nat)
    requires |tokens| == |values| && NonEmptyTokens(tokens)
    requires FirstMatch("#" + t + y, tokens) == Some(k)
    requires IsPrefix(tokens[k], "#" + t)
    ensures Expand("#" + t + y, tokens, values) == values[k] + Expand(t[|tokens[k]| - 1..] + y, tokens, values)
  {
    var s := "#" + t + y;
    assert s[|tokens[k]|..] == t[|tokens[k]| - 1..] + y;
    ExpandAtMatch(s, tokens, values, k);
  }

  lemma ExpandHashNoMatch(t: string, y: string, tokens: seq<string>, values: seq<string>)
    requires |tokens| == |values| && NonEmptyTokens(tokens)
    requires FirstMatch("#" + t + y, tokens) == None
    ensures Expand("#" + t + y, tokens, values) == "#" + Expand(t + y, tokens, values)
  {
    var s := "#" + t + y;
    assert s[1..] == t + y;
    ExpandAtNoMatch(s, tokens, values);
    assert [s[0]] == "#";
  }

  lemma ExpandOpenMatch(t: string, y: string, tokens: seq<string>, values: seq<string>, k: nat)
    requires |tokens| == |values| && HashTokens(tokens) && '#' !in t
    requires FirstMatch("#" + t + y, tokens) == Some(k)
    requires IsPrefix(tokens[k], "#" + t)
    ensures Expand("#" + t + y, tokens, values)
      == values[k] + t[|tokens[k]| - 1..] + Expand(y, tokens, values)
  {
    var rest := t[|tokens[k]| - 1..];
    assert '#' !in rest by {
      assert forall x :: x in rest ==> x in t;
    }
    ExpandHashMatch(t, y, tokens, values, k);
    ExpandAfterPlain(rest, y, tokens, values);
  }

  lemma ExpandOpenNoMatch(t: string, y: string, tokens: seq<string>, values: seq<string>)
    requires |tokens| == |values| && HashTokens(tokens) && '#' !in t
    requires FirstMatch("#" + t + y, tokens) == None
    ensures Expand("#" + t + y, tokens, values) == "#" + t + Expand(y, tokens, values)
  {
    ExpandHashNoMatch(t, y, tokens, values);
    ExpandAfterPlain(t, y, tokens, values);
  }

  /** Only the first piece may be a finished one. */
  predicate OpenAfterFirst(pieces: seq<Piece>) {
    forall i :: 1 <= i < |pieces| ==> pieces[i].Open?
  }

  lemma {:induction false} ExpandFlat(pieces: seq<Piece>, tokens: seq<string>, values: seq<string>)
    requires |tokens| == |values| && HashTokens(tokens)
    requires PiecesOk(pieces) && OpenAfterFirst(pieces)
    ensures Expand(Flat(pieces), tokens, values) == Flat(ResolveAll(pieces, tokens, values))
    decreases |pieces|
  {
    if |pieces| > 0 {
      var rest := pieces[1..];
      assert PiecesOk(rest) && OpenAfterFirst(rest) by {
        assert forall i :: 0 <= i < |rest| ==> rest[i] == pieces[i + 1];
      }
      ExpandFlat(rest, tokens, values);
      ExpandFlatHead(pieces, tokens, values);
    }
  }

  lemma ResolveAllTail(pieces: seq<Piece>, tokens: seq<string>, values: seq<string>)
    requires |tokens| == |values| && NonEmptyTokens(tokens) && |pieces| > 0
    ensures ResolveAll(pieces, tokens, values)[1..] == ResolveAll(pieces[1..], tokens, values)
  {
    var a, b := ResolveAll(pieces, tokens, values)[1..], ResolveAll(pieces[1..], tokens, values);
    forall i | 0 <= i < |a|
      ensures a[i] == b[i]
    {
      assert a[i] == ResolveAll(pieces, tokens, values)[i + 1];
    }
  }

  /** The step of `ExpandFlat`: the first piece, given the rest. */
  lemma ExpandFlatHead(pieces: seq<Piece>, tokens: seq<string>, values: seq<string>)
    requires |tokens| == |values| && HashTokens(tokens) && |pieces| > 0
    requires PiecesOk(pieces) && OpenAfterFirst(pieces)
    requires Expand(Flat(pieces[1..]), tokens, values) == Flat(ResolveAll(pieces[1..], tokens, values))
    ensures Expand(Flat(pieces), tokens, values) == Flat(ResolveAll(pieces, tokens, values))
  {
    var rest := pieces[1..];
    var resolved := ResolveAll(pieces, tokens, values);
    ResolveAllTail(pieces, tokens, values);
    assert Flat(resolved) == FlatPiece(resolved[0]) + Flat(resolved[1..]);
    assert Flat(pieces) == FlatPiece(pieces[0]) + Flat(rest);
    match pieces[0]
    case Done(l) =>
      ResolveDone(l, tokens, values);
      ExpandAfterPlain(l, Flat(rest), tokens, values);
    case Open(t) =>
      if |rest| > 0 {
        assert rest[0] == pieces[1] && rest[0].Open?;
        assert Flat(rest) == "#" + rest[0].tail + Flat(rest[1..]);
      }
      ExpandOpen(t, Flat(rest), tokens, values);
  }

  // ---------------------------------------------------------------------
  // From a pattern to its pieces

  function Opens(tails: seq<string>): (r: seq<Piece>)
    ensures |r| == |tails| && forall i :: 0 <= i < |r| ==> r[i] == Open(tails[i])
  {
    seq(|tails|, i requires 0 <= i < |tails| => Open(tails[i]))
  }

  /** The text before the first `#` as it stands, then one open piece per `#`. */
  function PiecesOf(s: string): seq<Piece> {
    var parts := Split(s, "#");
    [Done(parts[0])] + Opens(parts[1..])
  }

  lemma JoinIsFlat(parts: seq<string>)
    requires |parts| > 0
    ensures Join(parts, "#") == Flat([Done(parts[0])] + Opens(parts[1..]))
  {
    var pieces := [Done(parts[0])] + Opens(parts[1..]);
    assert parts == [parts[0]] + parts[1..];
    assert pieces[1..] == Opens(parts[1..]);
    JoinOpens(parts[0], parts[1..]);
  }

  /** Joining on `#` is the head followed by one `#` and stretch per tail. */
  lemma {:induction false} JoinOpens(head: string, tails: seq<string>)
    ensures Join([head] + tails, "#") == head + Flat(Opens(tails))
    decreases |tails|
  {
    if |tails| == 0 {
      assert [head] + tails == [head];
    } else {
      var rest := Flat(Opens(tails[1..]));
      JoinOpens(tails[0], tails[1..]);
      assert tails == [tails[0]] + tails[1..];
      assert ([head] + tails)[1..] == tails;
      assert Join([head] + tails, "#") == head + "#" + (tails[0] + rest);
      assert Opens(tails)[1..] == Opens(tails[1..]);
      assert Flat(Opens(tails)) == ("#" + tails[0]) + rest;
      Regroup(head, "#", tails[0], rest);
    }
  }

  /** Re-bracketing of a four-part concatenation: the text before a
      placeholder, the placeholder, and the two pieces after it. */
  lemma Regroup(a: string, b: string, c: string, d: string)
    ensures a + b + (c + d) == a + ((b + c) + d)
  {
  }

  lemma PiecesOfShape(s: string, tokens: seq<string>)
    requires forall i :: 1 <= i < |Split(s, "#")| - 1 ==> !Extendable(Split(s, "#")[i], tokens)
    ensures Flat(PiecesOf(s)) == s
    ensures PiecesOk(PiecesOf(s)) && OpenAfterFirst(PiecesOf(s)) && NoCrossing(PiecesOf(s), tokens)
  {
    var parts := Split(s, "#");
    JoinSplit(s, "#");
    JoinIsFlat(parts);
    SplitCharParts(s, '#');
    PartsShape(parts, tokens);
  }

  /** Stretches without `#` make well-formed pieces, open after the first. */
  lemma PartsShape(parts: seq<string>, tokens: seq<string>)
    requires |parts| > 0 && forall k :: 0 <= k < |parts| ==> '#' !in parts[k]
    requires forall i :: 1 <= i < |parts| - 1 ==> !Extendable(parts[i], tokens)
    ensures var pieces := [Done(parts[0])] + Opens(parts[1..]);
      PiecesOk(pieces) && OpenAfterFirst(pieces) && NoCrossing(pieces, tokens)
  {
    var pieces := [Done(parts[0])] + Opens(parts[1..]);
    forall i | 0 <= i < |pieces|
      ensures PieceOk(pieces[i]) && (i > 0 ==> pieces[i] == Open(parts[i]))
    {
      if i > 0 {
        assert pieces[i] == Open(parts[i]);
      }
    }
  }

  // ---------------------------------------------------------------------
  // The results

  /** The replace loop renders a template as the single scan does, provided
      no value contains `#` and no stretch of the pattern between two `#`
      can be completed into a placeholder by what comes after it. */
  lemma SubstituteIsSingleScan(s: string, tokens: seq<string>, values: seq<string>)
    requires |tokens| == |values| && HashTokens(tokens) && HashFree(values)
    requires forall i :: 1 <= i < |Split(s, "#")| - 1 ==> !Extendable(Split(s, "#")[i], tokens)
    ensures Substitute(s, tokens, values) == Expand(s, tokens, values)
  {
    PiecesOfShape(s, tokens);
    SubstituteFlat(PiecesOf(s), tokens, values);
    ExpandFlat(PiecesOf(s), tokens, values);
  }

  lemma TokensAreHashTokens()
    ensures HashTokens(Tokens)
  {
    forall k | 0 <= k < |Tokens|
      ensures |Tokens[k]| > 0 && Tokens[k][0] == '#' && '#' !in Tokens[k][1..]
    {
      TokenIsHashToken(Tokens[k]);
    }
  }

  lemma TokenIsHashToken(t: string)
    requires t in Tokens
    ensures |t| > 0 && t[0] == '#' && '#' !in t[1..]
  {
    assert forall i :: 1 <= i < |t| ==> t[i] == '-' || 'a' <= t[i] <= 'z';
    assert forall i :: 0 <= i < |t| - 1 ==> t[1..][i] == t[i + 1];
  }

  /** In safe mode a pattern is rendered by the single scan, under the same
      condition on the pattern. */
  lemma SafeRenderIsSingleScan(word: char -> bool, pattern: string, track: Track, numberText: string)
    requires AsciiWordExact(word) && |track.album.artists| > 0
    requires forall i :: 1 <= i < |Split(pattern, "#")| - 1 ==> !Extendable(Split(pattern, "#")[i], Tokens)
    ensures
      var values := Values(word, false, track, numberText);
      RenderPath(word, pattern, track, false, numberText) ==
        match ClearName(Expand(pattern, Tokens, values))
        case Ok(name) => Ok(name + Suffix)
        case Err(e) => Err(BadSegment(e))
  {
    var values := Values(word, false, track, numberText);
    TokensAreHashTokens();
    SafeValuesArePathSafe(word, track, numberText);
    assert HashFree(values) by {
      forall k | 0 <= k < |values|
        ensures '#' !in values[k]
      {
        assert forall i :: 0 <= i < |values[k]| ==> values[k][i] != '#';
      }
    }
    SubstituteIsSingleScan(pattern, Tokens, values);
  }

  lemma PrefixesOfOneText(a: string, b: string, s: string)
    requires IsPrefix(a, s) && IsPrefix(b, s) && |a| <= |b|
    ensures IsPrefix(a, b)
  {
    assert b[..|a|] == s[..|a|];
  }

  /** Where two placeholders could both start at the same `#`, the scan
      takes the longer: the table lists longer placeholders first. */
  lemma FirstMatchIsLongest(s: string)
    requires FirstMatch(s, Tokens).Some?
    ensures forall j :: 0 <= j < |Tokens| && IsPrefix(Tokens[j], s) ==>
      |Tokens[j]| <= |Tokens[FirstMatch(s, Tokens).value]|
  {
    var k := FirstMatch(s, Tokens).value;
    LongerTokensFirst();
    forall j | 0 <= j < |Tokens| && IsPrefix(Tokens[j], s)
      ensures |Tokens[j]| <= |Tokens[k]|
    {
      if |Tokens[k]| <= |Tokens[j]| {
        PrefixesOfOneText(Tokens[k], Tokens[j], s);
      }
    }
  }

  /** `DEFAULT_PATH_PATTERN` (ymd/core.py:18) as a POSIX path string. */
  const DefaultPattern: string := "#album-artist/#album/#number - #title"

  /** A stretch holding a character that appears in no placeholder cannot
      be continued into one. */
  lemma ForeignCharBlocks(t: string, c: char, tokens: seq<string>)
    requires c in t && forall k :: 0 <= k < |tokens| ==> c !in tokens[k]
    ensures !Extendable(t, tokens)
  {
    forall k | 0 <= k < |tokens| && |t| + 1 < |tokens[k]|
      ensures !IsPrefix(t, tokens[k][1..])
    {
      var i :| 0 <= i < |t| && t[i] == c;
      assert tokens[k][1..][..|t|][i] == tokens[k][i + 1];
    }
  }

  /** No placeholder holds a slash or a space. */
  lemma TokensAvoid()
    ensures forall k :: 0 <= k < |Tokens| ==> '/' !in Tokens[k] && ' ' !in Tokens[k]
  {
    forall k | 0 <= k < |Tokens|
      ensures '/' !in Tokens[k] && ' ' !in Tokens[k]
    {
      assert forall i :: 0 <= i < |Tokens[k]| ==> Tokens[k][i] == '#' || Tokens[k][i] == '-' || 'a' <= Tokens[k][i] <= 'z';
    }
  }

  /** The join of five parts, spelled out one separator at a time. */
  lemma JoinFive(a: string, b: string, c: string, d: string, e: string, sep: string)
    ensures Join([a, b, c, d, e], sep) == a + sep + (b + sep + (c + sep + (d + sep + e)))
  {
    assert [a, b, c, d, e][1..] == [b, c, d, e];
    assert [b, c, d, e][1..] == [c, d, e];
    assert [c, d, e][1..] == [d, e];
    assert [d, e][1..] == [e];
    assert Join([d, e], sep) == d + sep + e;
    assert Join([c, d, e], sep) == c + sep + Join([d, e], sep);
    assert Join([b, c, d, e], sep) == b + sep + Join([c, d, e], sep);
  }

  // The default pattern `#album-artist/#album/#number - #title` rebuilt from
  // the text between its `#`s, one `#` at a time, right to left.
  lemma GlueTitle() ensures "number - " + "#" + "title" == "number - #title" {}
  lemma GlueNumber() ensures "album/" + "#" + "number - #title" == "album/#number - #title" {}
  lemma GlueAlbum()
    ensures "album-artist/" + "#" + "album/#number - #title" == "album-artist/#album/#number - #title"
  {}
  lemma GlueHead()
    ensures DefaultPattern[0] == '#' && DefaultPattern[1..] == "album-artist/#album/#number - #title"
  {}
  lemma GlueAll()
    ensures "" + "#" + DefaultPattern[1..] == DefaultPattern
  {
    GlueHead();
  }

  lemma DefaultPatternIsJoin()
    ensures Join(["", "album-artist/", "album/", "number - ", "title"], "#") == DefaultPattern
  {
    JoinFive("", "album-artist/", "album/", "number - ", "title", "#");
    GlueTitle();
    GlueNumber();
    GlueAlbum();
    GlueHead();
    GlueAll();
  }

  lemma DefaultPartsHashFree()
    ensures forall k :: 0 <= k < 5 ==> '#' !in ["", "album-artist/", "album/", "number - ", "title"][k]
  {
  }

  lemma DefaultPatternParts()
    ensures Split(DefaultPattern, "#") == ["", "album-artist/", "album/", "number - ", "title"]
  {
    DefaultPatternIsJoin();
    DefaultPartsHashFree();
    SplitJoinChar(["", "album-artist/", "album/", "number - ", "title"], '#');
  }

  /** No stretch of the default pattern can run on into a placeholder. */
  lemma DefaultPartsNoCrossing(parts: seq<string>)
    requires parts == ["", "album-artist/", "album/", "number - ", "title"]
    ensures forall i :: 1 <= i < |parts| - 1 ==> !Extendable(parts[i], Tokens)
  {
    TokensAvoid();
    assert parts[1][12] == '/' && parts[2][5] == '/' && parts[3][6] == ' ';
    ForeignCharBlocks(parts[1], '/', Tokens);
    ForeignCharBlocks(parts[2], '/', Tokens);
    ForeignCharBlocks(parts[3], ' ', Tokens);
  }

  /** The default pattern is rendered by the single scan in safe mode. */
  lemma DefaultPatternScansOnce(word: char -> bool, track: Track, numberText: string)
    requires AsciiWordExact(word) && |track.album.artists| > 0
    ensures
      var values := Values(word, false, track, numberText);
      RenderPath(word, DefaultPattern, track, false, numberText) ==
        match ClearName(Expand(DefaultPattern, Tokens, values))
        case Ok(name) => Ok(name + Suffix)
        case Err(e) => Err(BadSegment(e))
  {
    DefaultPatternParts();
    DefaultPartsNoCrossing(Split(DefaultPattern, "#"));
    SafeRenderIsSingleScan(word, DefaultPattern, track, numberText);
  }

  /** The default pattern holds no backslash, so in safe mode it renders for
      every track whose album has an artist. */
  lemma DefaultPatternRenders(word: char -> bool, track: Track, numberText: string)
    requires AsciiWordExact(word) && |track.album.artists| > 0
    ensures RenderPath(word, DefaultPattern, track, false, numberText).Ok?
  {
    assert Sep !in DefaultPattern;
    RenderPathSucceeds(word, DefaultPattern, track, numberText);
  }

  // ---------------------------------------------------------------------
  // Where the replace loop and the single scan part ways

  /** Placeholders that do not occur in the text are passed over. */
  lemma {:induction false} SubstituteSkipsAbsent(s: string, tokens: seq<string>, values: seq<string>, n: nat)
    requires |tokens| == |values| && NonEmptyTokens(tokens) && n <= |tokens|
    requires forall k :: 0 <= k < n ==> !Occurs(tokens[k], s)
    ensures Substitute(s, tokens, values) == Substitute(s, tokens[n..], values[n..])
    decreases n
  {
    if n > 0 {
      ReplaceAbsent(s, tokens[0], values[0]);
      assert tokens[1..][n - 1..] == tokens[n..] && values[1..][n - 1..] == values[n..];
      SubstituteSkipsAbsent(s, tokens[1..], values[1..], n - 1);
    }
  }

  /** A pattern that does not start the text and is longer than the rest
      of it does not occur. */
  lemma NotAtStartNorAfter(p: string, s: string)
    requires |s| > 0 && !IsPrefix(p, s) && |p| > |s| - 1
    ensures !Occurs(p, s)
  {
    TooLongToOccur(p, s[1..]);
  }

  lemma TokenLengths()
    ensures |Tokens[0]| == 13 && |Tokens[1]| == 10 && |Tokens[2]| == 9 && |Tokens[3]| == 9
    ensures |Tokens[4]| == 14 && |Tokens[5]| == 7 && |Tokens[6]| == 7 && |Tokens[7]| == 6
    ensures |Tokens[8]| == 6 && |Tokens[9]| == 5
  {
  }

  /** The last three passes of the replace loop. */
  lemma LastPasses(s: string, values: seq<string>)
    requires |values| == |Tokens|
    ensures Substitute(s, Tokens[7..], values[7..]) ==
      ReplaceAll(ReplaceAll(ReplaceAll(s, "#title", values[7]), "#album", values[8]), "#year", values[9])
  {
    var t, v := Tokens[7..], values[7..];
    assert t == ["#title", "#album", "#year"];
    assert v[0] == values[7] && v[1..][0] == values[8] && v[1..][1..][0] == values[9];
    var s1 := ReplaceAll(s, "#title", values[7]);
    var s2 := ReplaceAll(s1, "#album", values[8]);
    var s3 := ReplaceAll(s2, "#year", values[9]);
    assert Substitute(s, t, v) == Substitute(s1, t[1..], v[1..]);
    assert Substitute(s1, t[1..], v[1..]) == Substitute(s2, t[1..][1..], v[1..][1..]);
    assert Substitute(s2, t[1..][1..], v[1..][1..]) == Substitute(s3, t[1..][1..][1..], v[1..][1..][1..]);
    assert t[1..][1..][1..] == [];
  }

  /** The replace loop on the pattern `#title` when the title reads `#year`:
      the `#title` pass inserts `#year`, which the `#year` pass then replaces
      by the year. */
  lemma TitleRescannedAt(s: string, values: seq<string>)
    requires |values| == |Tokens| && s == "#title" && values[7] == "#year"
    ensures NonEmptyTokens(Tokens) && Substitute(s, Tokens, values) == values[9]
  {
    TokensNonEmpty();
    TokenLengths();
    forall k | 0 <= k < 7
      ensures !Occurs(Tokens[k], s)
    {
      TooLongToOccur(Tokens[k], s);
    }
    SubstituteSkipsAbsent(s, Tokens, values, 7);
    LastPasses(s, values);
    ReplaceWhole(s, values[7]);
    var y := values[7];
    TooLongToOccur("#album", y);
    ReplaceAbsent(y, "#album", values[8]);
    ReplaceWhole(y, values[9]);
  }

  lemma TitleIsToken(t: string, values: seq<string>)
    requires |values| == |Tokens| && t == "#title"
    ensures NonEmptyTokens(Tokens) && Expand(t, Tokens, values) == values[7]
  {
    TokensNonEmpty();
    TokenLengths();
    ExpandWholeToken(t, Tokens, values, 7);
  }

  /** Text that is exactly a token, shorter than every token before it,
      renders as that token's value. */
  lemma ExpandWholeToken(s: string, tokens: seq<string>, values: seq<string>, k: nat)
    requires |tokens| == |values| && NonEmptyTokens(tokens) && k < |tokens| && tokens[k] == s
    requires forall j :: 0 <= j < k ==> |tokens[j]| > |s|
    ensures Expand(s, tokens, values) == values[k]
  {
    assert IsPrefix(tokens[k], s);
    FirstMatchAt(s, tokens, k);
    ExpandAtMatch(s, tokens, values, k);
    assert s[|tokens[k]|..] == [];
  }

  /** In unsafe mode a title that itself reads `#year` is rendered as the
      album year, where the single scan would keep it as the title. */
  lemma RescanInUnsafeMode(word: char -> bool, track: Track, numberText: string)
    requires |track.album.artists| > 0 && track.title == "#year"
    ensures var values := Values(word, true, track, numberText);
      && Expand("#title", Tokens, values) == "#year"
      && Substitute("#title", Tokens, values) == IntToStr(track.album.year)
      && Substitute("#title", Tokens, values) != Expand("#title", Tokens, values)
  {
    RescanInUnsafeModeAt("#title", word, track, numberText);
  }

  /** `RescanInUnsafeMode` with the pattern passed as a parameter. */
  lemma RescanInUnsafeModeAt(s: string, word: char -> bool, track: Track, numberText: string)
    requires s == "#title" && |track.album.artists| > 0 && track.title == "#year"
    ensures var values := Values(word, true, track, numberText);
      && NonEmptyTokens(Tokens)
      && Expand(s, Tokens, values) == "#year"
      && Substitute(s, Tokens, values) == IntToStr(track.album.year)
      && Substitute(s, Tokens, values) != Expand(s, Tokens, values)
  {
    var values := Values(word, true, track, numberText);
    var year := IntToStr(track.album.year);
    assert values[7] == "#year" && values[9] == year;
    TitleRescannedAt(s, values);
    TitleIsToken(s, values);
    assert year[0] != '#';
  }

  lemma DoubleHashAbsent()
    ensures forall k :: 0 <= k < 7 ==> !Occurs(Tokens[k], "##title")
  {
    var s := "##title";
    TokenLengths();
    forall k | 0 <= k < 7
      ensures !Occurs(Tokens[k], s)
    {
      if k < 5 {
        TooLongToOccur(Tokens[k], s);
      } else {
        assert Tokens[k][1] != s[1];
        NotAtStartNorAfter(Tokens[k], s);
      }
    }
  }

  lemma TitleAfterHash(v: string)
    ensures ReplaceAll("##title", "#title", v) == "#" + v
  {
    var s := "##title";
    assert s[..6][1] != "#title"[1];
    assert s[1..] == "#title";
    ReplaceWhole("#title", v);
  }

  /** The replace loop on the pattern `##title` when the title reads `year`:
      the `#title` pass leaves `#year`, which the `#year` pass then replaces
      by the year. */
  lemma DoubleHashRescannedAt(s: string, values: seq<string>)
    requires |values| == |Tokens| && s == "##title" && values[7] == "year"
    ensures NonEmptyTokens(Tokens) && Substitute(s, Tokens, values) == values[9]
  {
    TokensNonEmpty();
    DoubleHashAbsent();
    SubstituteSkipsAbsent(s, Tokens, values, 7);
    LastPasses(s, values);
    TitleAfterHash("year");
    TooLongToOccur("#album", "#year");
    ReplaceAbsent("#year", "#album", values[8]);
    ReplaceWhole("#year", values[9]);
  }

  /** A prefix agrees with the text at each of its positions. */
  lemma PrefixAgreesAt(p: string, s: string, i: nat)
    requires i < |p|
    ensures IsPrefix(p, s) ==> p[i] == s[i]
  {
    if IsPrefix(p, s) {
      assert s[..|p|][i] == s[i];
    }
  }

  lemma TokensLong()
    ensures forall k :: 0 <= k < |Tokens| ==> |Tokens[k]| >= 5
  {
  }

  /** No placeholder of at least two characters starts where a `#` is
      followed by another. */
  lemma NoTokenAtDoubleHash(s: string, tokens: seq<string>)
    requires |s| >= 2 && s[1] == '#'
    requires HashTokens(tokens) && forall k :: 0 <= k < |tokens| ==> |tokens[k]| >= 2
    ensures FirstMatch(s, tokens) == None
  {
    forall k | 0 <= k < |tokens|
      ensures !IsPrefix(tokens[k], s)
    {
      assert tokens[k][1..][0] == tokens[k][1];
      PrefixAgreesAt(tokens[k], s, 1);
    }
  }

  lemma DoubleHashExpands(s: string, values: seq<string>)
    requires |values| == |Tokens| && s == "##title"
    ensures NonEmptyTokens(Tokens) && Expand(s, Tokens, values) == "#" + values[7]
  {
    TokensNonEmpty();
    TokensAreHashTokens();
    TokensLong();
    NoTokenAtDoubleHash(s, Tokens);
    ExpandAtNoMatch(s, Tokens, values);
    TitleIsToken(s[1..], values);
  }

  lemma YearIsClean(word: char -> bool)
    requires AsciiWordExact(word)
    ensures ClearValue(word, "year") == "year"
  {
    assert word('y') && word('e') && word('a') && word('r');
    ClearAllowed(word, "year");
  }

  lemma SafeYearValues(word: char -> bool, track: Track, numberText: string)
    requires AsciiWordExact(word) && |track.album.artists| > 0 && track.title == "year"
    ensures var values := Values(word, false, track, numberText);
      && values[7] == "year"
      && values[9] == ClearValue(word, IntToStr(track.album.year))
      && '#' !in values[9]
  {
    var values := Values(word, false, track, numberText);
    YearIsClean(word);
    SafeValuesArePathSafe(word, track, numberText);
    assert forall i :: 0 <= i < |values[9]| ==> values[9][i] != '#';
  }

  /** Even in safe mode, where no value holds `#`, a pattern `##title` with
      the title `year` is rendered as the album year: the first pass leaves
      `#year` behind and a later pass replaces it. The single scan gives
      `#year`, the `#` followed by the title. */
  lemma RescanInSafeMode(word: char -> bool, track: Track, numberText: string)
    requires AsciiWordExact(word) && |track.album.artists| > 0 && track.title == "year"
    ensures var values := Values(word, false, track, numberText);
      && Expand("##title", Tokens, values) == "#" + track.title
      && Substitute("##title", Tokens, values) == ClearValue(word, IntToStr(track.album.year))
      && Substitute("##title", Tokens, values) != Expand("##title", Tokens, values)
  {
    RescanInSafeModeAt("##title", word, track, numberText);
  }

  /** `RescanInSafeMode` with the pattern passed as a parameter. */
  lemma RescanInSafeModeAt(s: string, word: char -> bool, track: Track, numberText: string)
    requires s == "##title"
    requires AsciiWordExact(word) && |track.album.artists| > 0 && track.title == "year"
    ensures var values := Values(word, false, track, numberText);
      && NonEmptyTokens(Tokens)
      && Expand(s, Tokens, values) == "#" + track.title
      && Substitute(s, Tokens, values) == ClearValue(word, IntToStr(track.album.year))
      && Substitute(s, Tokens, values) != Expand(s, Tokens, values)
  {
    var values := Values(word, false, track, numberText);
    SafeYearValues(word, track, numberText);
    DoubleHashExpands(s, values);
    DoubleHashRescannedAt(s, values);
    assert ("#" + values[7])[0] == '#';
  }
}

=== FILE: wrappers.dfy ===
/** Failure-carrying values used throughout the model: `Option` for Python's
    `None`-or-value, `Result` for an operation that may raise. */
module Wrappers {

  datatype Option<+T> = None | Some(value: T)

  datatype Result<+T, +E> = Ok(value: T) | Err(error: E)
}
